=== FILE: README.md ===
# Wallet backend ledger model

A Dafny model of the money-moving core of a Flask wallet backend. Users
register and each receives one wallet with a zero balance. Users send money to
other wallets for a 1.5% fee, top up directly, or deposit through a
mobile-money gateway (M-Pesa STK push) whose asynchronous callback settles a
pending ledger row. An administrator can add to or deduct from any wallet, with
an audit row. Each user has a notification inbox.

The whole database is one immutable value `Store.Db`, made of tables held as
sequences in insertion order. Every route handler is a pure function from the
database and the request to a `Store.Step`: the database after the request
(the committed state, or the unchanged one after a rejection or rollback)
together with the reply or a `Common.Failure`, which `Common.HttpStatus` maps
to the HTTP status. Money is integer cents. Values that the handlers take from
the outside world are parameters:

- generated transaction ids and database keys;
- the gateway's reply;
- the callback body;
- the clock.

Modules, following the source layout:

| module | file | models |
|---|---|---|
| `Common` | common.dfy | `Option`/`Result`, `.first()` lookup, failures and status codes, `float(...)` on request fields |
| `Money` | money.dfy | `calculate_fee`, two-decimal rendering |
| `Models` | models.dfy | `Transaction` and `Notification` models, user and wallet records |
| `Store` | store.dfy | the database, lookups, integrity (`Valid`), balance arithmetic, ledger evolution |
| `Strings` | strings.dfy | `str.lower`, `str.strip` |
| `TransactionRoutes` | transaction_routes.dfy | `send_money`, `get_transactions`, `get_transaction` |
| `WalletRoutes` | wallet_routes.dfy | `add_funds`, `mpesa_deposit`, `mpesa_callback` |
| `AdminRoutes` | admin_routes.dfy | `admin_adjust_wallet` |
| `AuthRoutes` | auth_routes.dfy | `register`, `login` |
| `NotificationRoutes` | notification_routes.dfy | `create_notification` and the inbox routes |
| `Ledger` | ledger.dfy | all writing handlers as one state machine; properties of whole runs |
| `FloatGuards` | float_guards.dfy | the amount guards on Python floats, NaN and infinities included |

Where the documented design of the service and its code differ, the model follows the code:

- Sending does not check the wallet's status; there is no frozen-wallet rule.
- The row types are `transfer`, `add_funds`, `mpesa_deposit` and `admin_deduction`. An admin addition is recorded as `add_funds`.
- Any callback `ResultCode` other than 0 fails the row. No result code leaves it pending.
- The callback credits whatever amount the gateway reports, without requiring it to be positive.
- A deposit does not check that its merchant request id is unused. The replay and redelivery lemmas therefore assume at most one pending row per id (`WalletRoutes.PendingUnique`).

## Model

| member | source | states |
|---|---|---|
| Common.ParseAmount | routes/transaction_routes.py:25 | `float(data.get('amount', d))`: a number yields itself and an absent field the default, and only those succeed; null, a list or an object (or an absent field with no default) is a TypeError; a string `float` cannot parse is a ValueError |
| Money.CalculateFee | routes/transaction_routes.py:11-13 | the fee is the whole number of cents nearest to 1.5% of the amount, with a tie rounded up: -100 < 200*fee - 3*amount <= 100 |
| Money.TotalWithFee | routes/transaction_routes.py:53-54 | the surcharge over the amount is 1.5% of the amount rounded half-up to whole cents, and on a non-negative amount the total lies between the amount and twice it |
| Money.FeeIsUnique | routes/transaction_routes.py:11-13 | any cent value within half a cent of 1.5% of the amount (ties upward) is the fee, so the rounding rule is unambiguous |
| Money.FeeBounds | routes/transaction_routes.py:53-54 | for a non-negative amount, 0 <= fee <= amount and amount <= total <= 2*amount |
| Money.FeeMonotone | routes/transaction_routes.py:11-13 | a larger amount never has a smaller fee |
| Money.FiftyDollarTransfer | routes/transaction_routes.py:53-54 | 50.00 costs a fee of 0.75, 50.75 in total |
| Money.ToTwoDecimals | models/transaction.py:30-32 | the two-decimal rendering has hundredths below 100 and reads back as the same number of cents |
| Money.TwoDecimalsRoundTrip | models/transaction.py:30-32 | rendering the cents of a well-formed two-decimal value gives that value back |
| Models.NoteOf | routes/transaction_routes.py:26 | `data.get('note', dflt)` stored in the nullable note column: the default when the key is missing, null exactly when the body says null, the text otherwise |
| Models.NewTxn | models/transaction.py:8-18 | a row built with columns left out takes the column defaults: fee 0, type transfer, status completed, no receipt number |
| Models.ToView | models/transaction.py:23-41 | `to_dict` keeps every column, renders the three amounts with two decimals and the type and status by name, and can be read back to the same row |
| Models.ToViewInjective | models/transaction.py:23-41 | two rows with the same serialised form are the same row |
| Models.NewNotification | models/notification.py:11-20 | a new notification is unread, has no read time and has type "info" unless given one |
| Models.MarkAsRead | models/notification.py:40-45 | an unread notification becomes read and is stamped with the current time; a read one is returned unchanged |
| Models.MarkAsReadIdempotent | models/notification.py:42 | marking read twice, at any two times, is the same as marking read once |
| Store.UserByEmail | routes/auth_routes.py:75 | the lookup yields the first user with that e-mail, or none exists |
| Store.WalletOfUser | routes/transaction_routes.py:39 | the lookup yields the first wallet owned by the user, or the user owns none |
| Store.WalletByKey | routes/admin_routes.py:293 | the lookup by primary key yields a wallet with that key, or none has it |
| Store.CreditChangesTotal | routes/transaction_routes.py:69-73 | changing one balance by delta changes the money held by all wallets by exactly delta |
| Store.AppendKeepsUniqueIds | models/transaction.py:8 | appending a row whose transaction id is unused keeps the ids unique |
| Store.CreditKeepsValid | routes/transaction_routes.py:63-73 | a balance change that leaves the balance non-negative keeps the database consistent |
| Strings.Lower | routes/auth_routes.py:23 | keeps the length, lower-cases ASCII A-Z and leaves every other character as it is (see Left out for non-ASCII letters) |
| Strings.TrimStart | routes/auth_routes.py:23 | the result is a suffix, everything dropped is whitespace, and it does not start with whitespace |
| Strings.TrimEnd | routes/auth_routes.py:23 | the result is a prefix, everything dropped is whitespace, and it does not end with whitespace |
| Strings.StripResult | routes/auth_routes.py:23 | `strip()` leaves no whitespace at either end and leaves an already trimmed string as it is |
| AuthRoutes.NormalizeEmailIdempotent | routes/auth_routes.py:23-30 | a stored e-mail has no upper-case letter and no surrounding whitespace, and normalising it again changes nothing |
| AuthRoutes.MissingRequired | routes/auth_routes.py:17-20 | registration may go on exactly when first name, last name, e-mail and password are all present and non-empty; otherwise the 400 names the first of them, in that order, that is absent or empty |
| AuthRoutes.NewUser | routes/auth_routes.py:27-34 | the stored user has the normalised e-mail, the given password, the role given or "user", and the default status |
| AuthRoutes.Register | routes/auth_routes.py:10-62 | a missing field gives 400 naming it; an e-mail that normalises to a registered one is refused; every refusal changes nothing; success adds exactly one user and one wallet for that user with balance 0 |
| AuthRoutes.RegisterKeepsValid | routes/auth_routes.py:36-46 | registration keeps the database consistent, one wallet per user included |
| AuthRoutes.DuplicateRegistrationRefused | routes/auth_routes.py:22-24 | after a registration, registering the same address in any case or padding is refused and creates nothing |
| AuthRoutes.Login | routes/auth_routes.py:65-81 | both fields are required (400); login succeeds, as that user, exactly when the normalised e-mail's user exists, the password matches and the status is "active"; an unknown e-mail or a wrong password gives exactly 401; a matching password on a non-active account gives 403 |
| AuthRoutes.RegisterThenLogin | routes/auth_routes.py:75-81 | right after registering, the same credentials log in as the new user exactly when the default status is "active" |
| TransactionRoutes.ValidateSend | routes/transaction_routes.py:34-66 | the checks of `send_money` in source order, each with its error: an unparseable amount gives 400, a null one 500, a self-transfer is refused exactly when both wallets are the same; the request passes exactly when it names a receiver, the amount is positive, both wallets exist and differ, and the balance covers amount plus fee |
| TransactionRoutes.SendMoney | routes/transaction_routes.py:68-123 | a failed check or a reused transaction id changes nothing; otherwise the sender loses amount + fee (staying >= 0), the receiver gains the amount, no other wallet changes, and exactly one completed transfer row is appended, carrying the request's note ("" when absent, null when the body says null) |
| TransactionRoutes.SendConservesMoney | routes/transaction_routes.py:69-73 | a transfer lowers the money held by all wallets by exactly its fee |
| TransactionRoutes.SendKeepsValid | routes/transaction_routes.py:62-90 | a transfer keeps a consistent database consistent, and every failure leaves it unchanged |
| TransactionRoutes.Select | routes/transaction_routes.py:139-155 | the listing holds exactly the rows the direction's filter selects, each with its two flags |
| TransactionRoutes.GetTransactions | routes/transaction_routes.py:139-155 | "sent" lists exactly the caller's outgoing transfers, "received" exactly the incoming transfers from others, any other value every row the caller is party to; nothing else is listed, and every entry carries its correct `is_sent` / `is_received` flags |
| TransactionRoutes.TransfersSplitIntoSentAndReceived | routes/transaction_routes.py:139-149 | each transfer the caller takes part in is listed under exactly one of "sent" and "received" |
| TransactionRoutes.GetTransaction | routes/transaction_routes.py:204-211 | an unknown id gives 404, a row the caller is not a party to gives 403, otherwise the row with that id |
| TransactionRoutes.GetTransactionFindsTheRow | routes/transaction_routes.py:204-211 | with unique ids, a party asking for a row's id gets exactly that row |
| TransactionRoutes.GetTransactionAsWritten | routes/transaction_routes.py:203-211 | as written, every existing row is refused with 403, because the ids are compared with a string identity |
| TransactionRoutes.GetTransactionsAsWritten | routes/transaction_routes.py:178-184 | as written, the listing selects the right rows but never sets `is_sent` or `is_received` |
| TransactionRoutes.StringIdentityHidesOwnTransfer | routes/transaction_routes.py:182-210 | a concrete sender is refused its own transfer and sees it unflagged, where the corrected reads return and flag it |
| WalletRoutes.AddFundsToWallet | routes/wallet_routes.py:241-289 | no wallet gives 404; an unparseable amount gives 400 "Invalid amount format" (exactly then), a null one 500, and an amount <= 0 gives 400 "Invalid amount" (exactly then); the call succeeds exactly for an amount in (0, 10,000.00] with a fresh id; success credits exactly the amount and appends one completed add_funds row with fee 0, total = amount and the request's note (a default text when absent, null when the body says null); every failure changes nothing |
| WalletRoutes.AddFundsAccounting | routes/wallet_routes.py:257-275 | a top-up raises the money held by all wallets by exactly its amount and keeps the database consistent |
| WalletRoutes.StartMpesaDeposit | routes/wallet_routes.py:28-124 | an amount <= 0 or a missing wallet is refused before the gateway; a pending row is appended exactly when the gateway answered ResponseCode "0"; balances never change |
| WalletRoutes.PendingDepositShape | routes/wallet_routes.py:94-106 | the pending row has the user as both parties, fee 0, total = amount, status pending and both correlation ids |
| WalletRoutes.ItemValue | routes/wallet_routes.py:171-173 | the value found is that of the first item of that name, and none means there is no such item |
| WalletRoutes.ReportedAmount | routes/wallet_routes.py:172-181 | the settled amount is 0 when no "Amount" item exists, that item's value when it is a number, and unconvertible otherwise |
| WalletRoutes.PendingByMerchant | routes/wallet_routes.py:148-151 | the match is a pending row with that merchant request id, or no pending row has it |
| WalletRoutes.MpesaCallback | routes/wallet_routes.py:127-213 | no pending match acknowledges and changes nothing; otherwise only the matched row changes and it leaves pending; wallets change only on ResultCode 0 with the owner's wallet present; in that case a convertible reported amount always credits the wallet by that amount and completes the row, and an unconvertible one rolls back with ResultCode 1; another ResultCode or a missing wallet fails the row with no balance change; an error rolls back |
| WalletRoutes.CallbackAckCode | routes/wallet_routes.py:206-213 | the gateway is told ResultCode 1 exactly when a matched row's owner has a wallet, ResultCode is 0 and the reported amount cannot be converted; every other callback gets ResultCode 0 |
| WalletRoutes.CallbackLeavesTerminalRows | routes/wallet_routes.py:148-151 | completed and failed rows are never changed by a callback |
| WalletRoutes.CallbackAccounting | routes/wallet_routes.py:180-189 | a callback changes the money held by all wallets by nothing or by exactly the reported amount, and with a non-negative report keeps the database consistent |
| WalletRoutes.CallbackReplayIsNoOp | routes/wallet_routes.py:148-156 | with at most one pending row per merchant request id, delivering the same callback a second time changes nothing |
| WalletRoutes.RedeliveryCreditsOnce | routes/wallet_routes.py:148-156 | the same callback delivered any number n >= 1 of times has the effect of one delivery |
| WalletRoutes.DepositThenSettle | routes/wallet_routes.py:88-189 | after a deposit is started under a merchant request id no other pending row has, its callback resolves exactly the new row: success credits the depositor's wallet by the reported amount and completes it, any other result fails it with no balance change; older rows are untouched |
| AdminRoutes.AuditRow | routes/admin_routes.py:327-337 | the audit row is completed, with fee 0 and total = amount; an addition is paid by the admin to the owner, a deduction by the owner to the admin |
| AdminRoutes.AdminAdjustWallet | routes/admin_routes.py:290-358 | an unknown wallet gives 404; an unparseable amount gives 400 "Invalid amount format" (exactly then) and a null one 500; an amount <= 0 and an action other than add or deduct are refused; a deduction is refused exactly when the balance is below the amount; the call succeeds exactly for a positive amount with "add", or with "deduct" when the balance covers it, and a fresh id; failures change nothing; success moves the balance by ± amount, appends the audit row and reports old and new balance |
| AdminRoutes.AdjustAccounting | routes/admin_routes.py:306-317 | an adjustment moves the money held by all wallets by exactly the signed amount and keeps the database consistent |
| NotificationRoutes.Count | routes/notification_routes.py:179-182 | the count is at most the table size and is zero exactly when the user has no notification with that read flag |
| NotificationRoutes.CreateNotification | models/notification.py:51-78 | exactly one notification is appended, for the given user, carrying the given title, message, type (default "info") and link, and unread; the call succeeds exactly when the id is unused; a clashing id is an error that changes nothing |
| NotificationRoutes.CreateNotificationCounts | models/notification.py:66-78 | a new notification raises its recipient's unread count by one, leaves every other count alone and keeps ids unique |
| NotificationRoutes.Owned | routes/notification_routes.py:26-32 | the selection holds exactly the user's notifications (the unread ones when filtering), and its length is the matching count |
| NotificationRoutes.UnreadOnly | routes/notification_routes.py:21 | the filter is on exactly when the parameter is "true" in any letter case, and off when absent |
| NotificationRoutes.UnreadCount | routes/notification_routes.py:172-187 | the unread count is zero exactly when all the user's notifications are read |
| NotificationRoutes.GetNotifications | routes/notification_routes.py:15-49 | the intended reply, with the notification's `meta_data` rendered: the listing holds exactly the user's notifications, only unread ones under `unread_only`; total_count is its size: without the filter the number of the user's notifications, with it the unread count (the source as written replies 500 instead; see Findings) |
| NotificationRoutes.MarkRead | routes/notification_routes.py:58-82 | the intended reply, with the notification's `meta_data` rendered: an unknown id gives 404 and another user's notification 403, both changing nothing; the owner's request succeeds and marks only that notification read (the source as written replies 500 after the mark; see Findings) |
| NotificationRoutes.MarkReadAsWritten | routes/notification_routes.py:58-82 | as written, no request succeeds: 404 and 403 as intended, and the owner's request replies 500 although the mark is committed, with no other notification changed |
| NotificationRoutes.GetNotificationsAsWritten | routes/notification_routes.py:15-49 | as written, the listing succeeds exactly when the selection is empty, and every other listing replies 500 |
| NotificationRoutes.StoredMetadataBreaksReplies | models/notification.py:25-37 | for one stored unread notification, its owner gets 500 from both routes as written (the mark still stored), where the intended routes reply with it |
| NotificationRoutes.MarkReadCounts | routes/notification_routes.py:63-72 | marking read lowers the owner's unread count by one if it was unread, leaves other users' counts alone, and repeating it changes nothing |
| NotificationRoutes.MarkAll | routes/notification_routes.py:93-99 | exactly the user's notifications are marked read; afterwards the user has no unread ones, the read count rose by the former unread count, and other users' counts are unchanged |
| NotificationRoutes.MarkAllAsRead | routes/notification_routes.py:87-107 | replies with the number of the user's unread notifications, marks exactly those read at `now`, and changes nothing else |
| NotificationRoutes.MarkAllAsReadIdempotent | routes/notification_routes.py:93-99 | marking all read again, at any time, reports 0 and changes nothing |
| NotificationRoutes.DeleteNotification | routes/notification_routes.py:117-137 | an unknown id gives 404 and another user's notification 403, both changing nothing; the owner's request always succeeds and removes that row |
| NotificationRoutes.DeleteRemovesExactlyOne | routes/notification_routes.py:131-132 | with unique ids, a delete removes exactly the notification with that id, and only its own count drops |
| NotificationRoutes.ClearRead | routes/notification_routes.py:153-156 | exactly the user's read notifications are removed; unread ones and other users' ones remain, with their counts |
| NotificationRoutes.ClearReadKeepsUniqueIds | routes/notification_routes.py:153-156 | clearing keeps notification ids unique |
| NotificationRoutes.ClearAllNotifications | routes/notification_routes.py:147-164 | replies with the number removed, which is the number of the user's read notifications; the user's unread count is unchanged |
| NotificationRoutes.ClearAfterMarkAll | routes/notification_routes.py:153-156 | clearing twice removes nothing the second time; clearing after marking all read empties the user's inbox |
| NotificationRoutes.InboxKeepsValid | routes/notification_routes.py:56-169 | mark-read, mark-all, delete and clear keep the database consistent |
| Ledger.ApplyKeepsValid | routes/transaction_routes.py:62-73 | every writing handler keeps a consistent database consistent, given a non-negative reported deposit amount; the debits are guarded by balance checks such as this one |
| Ledger.RunKeepsValid | routes/admin_routes.py:312-315 | any sequence of requests keeps the database consistent: unique keys, one wallet per user, and no negative balance, which the deduction guard here and the transfer guard ensure on finite amounts |
| Ledger.ApplyEvolves | routes/wallet_routes.py:148-202 | every handler leaves existing ledger rows alone except for resolving a pending one, and never removes a row |
| Ledger.RunEvolves | routes/wallet_routes.py:148-151 | over any run, the ledger only grows and only pending rows change, each by being resolved |
| Ledger.TerminalRowsAreFinal | routes/wallet_routes.py:148-151 | a completed or failed row stays exactly as it is whatever requests follow |
| Ledger.NoCreditAfterResolution | routes/wallet_routes.py:148-151 | once a row is no longer pending, no later callback credits a wallet for it |
| Ledger.CreditedAtMostOnce | routes/wallet_routes.py:148-189 | in any interleaving of requests and redelivered callbacks, each deposit row credits a wallet at most once |
| FloatGuards.Add | routes/wallet_routes.py:258 | finite values add as cents, and a NaN operand makes the sum NaN |
| FloatGuards.TopUpPassesAsWritten | routes/wallet_routes.py:250-256 | on finite amounts the guard accepts exactly (0, 10,000.00]; it refuses both infinities and accepts NaN |
| FloatGuards.SendCoveredAsWritten | routes/transaction_routes.py:63-66 | on finite values the check passes exactly when the balance covers the total; a NaN on either side passes |
| FloatGuards.NaNTopUpPassesEveryCheck | routes/wallet_routes.py:250-258 | a NaN top-up is accepted, makes the balance NaN, and that wallet then passes the balance check for a transfer of any size |
| FloatGuards.TopUpPasses | routes/wallet_routes.py:250-256 | the corrected guard accepts exactly the finite amounts in (0, 10,000.00] |
| FloatGuards.CorrectedTopUpKeepsBalanceFinite | routes/wallet_routes.py:251-258 | under the corrected guard a top-up keeps a non-negative balance finite and non-negative, so the balance check keeps its meaning |

## Left out

- HTTP, JSON and JWT plumbing are not modelled. The caller's user id is a parameter, and a missing JSON body is not modelled.
- The `admin_required` decorator is not modelled. Its code is not part of this model, and the acting admin is a parameter.
- The gateway HTTP calls are not modelled: access token, STK-push payload, base64 password and timestamp. The gateway's answer is an input (`GatewayReply`).
- Floating point is not modelled outside `FloatGuards`. Amounts are integer cents, and request amounts arrive already converted to cents (`AmountField.Number`). Sub-cent amounts and float rounding of balances are therefore not represented.
- The fee rounds an exact half cent upward. The source's `round(amount * 0.015, 2)` works on binary floats, and its tie behaviour depends on representation.
- Ordering by `created_at` and `limit`/`offset` paging are left out of both listings. Their `int(...)` parsing of paging parameters is left out too. Listings are in table order and unpaged.
- Timestamps (`created_at`, `updated_at`) and the internal autoincrement `id` of a ledger row are not modelled. A notification's `read_at` is an opaque clock value passed in.
- Sender and receiver names added to listing entries, and the texts of success messages, are not modelled.
- Id prefixes ("TXN", "ADM", "QP") are not modelled. Ids come from an oracle. A reused id fails the commit, which rolls back and replies 500.
- The user and wallet models are not part of this model. Their column defaults (user status, wallet currency and status) are a `Defaults` parameter, and password hashing is modelled as storing and comparing a credential.
- The rest of a notification's `to_dict` rendering is left out, and so is its `meta_data` column. The failure of the rendering on `metadata` is a finding below.
- The mobile-money notes are kept as a structured `Note` rather than formatted strings. Only the plain-text notes are text.
- Common.ParseAmount: `float` also returns NaN or an infinity, for strings such as "nan" or "1e999" and for a JSON `NaN`. The handlers' amounts are finite cents. The effect of a non-finite amount on the guards is a finding below, modelled in `FloatGuards`.
- Ledger.RunKeepsValid: holds for finite amounts only. In the source, a NaN amount passes the top-up, transfer and admin guards and makes balances NaN (see Findings).
- Strings.Lower: lower-cases ASCII A-Z only. Python's `str.lower()` also folds non-ASCII letters ("É" to "é"), and can change the length ("İ" becomes two code points). The model would therefore register "JOSÉ@x.com" next to "josé@x.com", where the source refuses the second.
- WalletRoutes.CallbackReplayIsNoOp: proved only when at most one pending row carries the callback's merchant request id (`PendingUnique`). Deposits do not check that the id is unused, so there can be two pending rows with the same id. A redelivery would then resolve the second row, and credit it again on success.
- WalletRoutes.RedeliveryCreditsOnce: proved under the same `PendingUnique` assumption as `CallbackReplayIsNoOp`. `Ledger.CreditedAtMostOnce` needs no such assumption: each row is credited at most once.
- WalletRoutes.ReportedAmount: a numeric string such as "100" is treated as unconvertible (ResultCode 1), although Python's `float` accepts it. The model has no decimal parser.
- WalletRoutes.MpesaCallback: a metadata item without `Name` or `Value`, and a `ResultCode` sent as a string, are not modelled. `ResultCode` is an optional integer.
- Ledger.ApplyKeepsValid: the callback credits whatever amount the gateway reports, without checking it. Consistency is proved only for non-negative reports (`Ledger.Sane`).
- Concurrency is not modelled. There is no locking, so two concurrent callbacks could both see the same pending row. Each handler is one atomic step.
- The fee leaves the system. No fee account is credited, so a transfer lowers the money held by all wallets by the fee (`SendConservesMoney`).

## Findings

| source | as written | input that shows it | evidently intended | confidence | as-written member | corrected member |
|---|---|---|---|---|---|---|
| routes/transaction_routes.py:203-211 | the party check compares the integer `sender_id`/`receiver_id` with `get_jwt_identity()`, which is the string `str(user.id)` the tokens are issued with | a transfer from user 1 to user 2, requested by user 1 with identity "1": 403 | compare with `int(get_jwt_identity())`, as the notification and admin routes do, so that parties see their rows | high; not executed | TransactionRoutes.GetTransactionAsWritten | TransactionRoutes.GetTransaction |
| routes/transaction_routes.py:182-183 | `is_sent` and `is_received` compare the integer party ids with the string identity, so both are always false | the same transfer listed with `type=sent` for user 1: `is_sent` false | flags computed on integer ids, as the SQL filters are | high; not executed | TransactionRoutes.GetTransactionsAsWritten | TransactionRoutes.GetTransactions |
| routes/wallet_routes.py:250-256 | `amount <= 0` and `amount > 10000` are both false when `amount` is NaN (`float("nan")` or a JSON `NaN`), so the top-up is accepted and `wallet.balance + amount` is NaN; `sender_wallet.balance < total_amount` (routes/transaction_routes.py:63) is then false, so that wallet passes the balance check for any transfer | top up with `{"amount": "nan"}`, then send 100.00 to another wallet | also refuse non-finite amounts (`math.isfinite`), so that balances stay finite and the guards keep their meaning | medium; not executed (how the database column stores NaN is not part of this model) | FloatGuards.TopUpPassesAsWritten | FloatGuards.TopUpPasses |
| models/notification.py:35 | `to_dict` renders `self.metadata`, but the JSON column is `meta_data`. On a notification loaded from the database, `metadata` is the ORM's class-level table registry, which `jsonify` cannot serialise. So `mark_as_read` (routes/notification_routes.py:72-77) commits the mark and then replies 500 | user 7 marks their unread notification 1 read: 500, with the notification stored as read | render `self.meta_data` under the `metadata` key | medium; not executed | NotificationRoutes.MarkReadAsWritten | NotificationRoutes.MarkRead |
| models/notification.py:35 | the same rendering makes `get_notifications` (routes/notification_routes.py:44) reply 500 whenever the page holds a notification | user 7 lists an inbox holding notification 1: 500 | render `self.meta_data` under the `metadata` key | medium; not executed | NotificationRoutes.GetNotificationsAsWritten | NotificationRoutes.GetNotifications |

`TransactionRoutes.StringIdentityHidesOwnTransfer` works through the input of the first two rows. `FloatGuards.NaNTopUpPassesEveryCheck` works through the third. `NotificationRoutes.StoredMetadataBreaksReplies` works through the last two. The rest of the model keeps amounts finite, as `FloatGuards.TopUpPasses` requires. `FloatGuards.CorrectedTopUpKeepsBalanceFinite` shows that the corrected guard keeps the balance check meaningful.

=== FILE: admin_routes.dfy ===
/** The administrator's manual balance adjustment with its audit row. */
module AdminRoutes {
  import opened Common
  import opened Money
  import opened Models
  import opened Store

  /** The body of an adjustment: "add" or "deduct", the amount (0 when absent)
      and an optional note. */
  datatype AdjustRequest = AdjustRequest(action: Option<string>, amount: AmountField, note: Option<string>)

  /** What a successful adjustment reports. */
  datatype Adjusted = Adjusted(wallet: Wallet, oldBalance: Cents, newBalance: Cents, amountChanged: Cents)

  /** The audit note: the fixed text, followed by the admin's note when one was given. */
  function AuditNote(add: bool, note: Option<string>): string
  {
    var base := if add then "Admin added funds" else "Admin deducted funds";
    if Given(note) then base + ": " + note.value else base
  }

  /** The audit row: for an addition the admin pays the owner, for a deduction
      the owner pays the admin; no fee. */
  function AuditRow(id: string, admin: UserId, owner: UserId, add: bool, amount: Cents, note: Option<string>): (t: Txn)
    ensures t.status == Completed && t.fee == 0 && t.amount == amount && t.totalAmount == amount
    ensures add ==> t.kind == AddFunds && t.senderId == admin && t.receiverId == owner
    ensures !add ==> t.kind == AdminDeduction && t.senderId == owner && t.receiverId == admin
  {
    NewTxn(id, if add then admin else owner, if add then owner else admin, amount, amount, Some(0),
           Some(if add then AddFunds else AdminDeduction), Some(Completed), Text(AuditNote(add, note)),
           None, None)
  }

  /** The mutation shared by both actions: move the balance, append the audit
      row, commit (which fails on a reused transaction id). */
  function Commit(db: Db, admin: UserId, i: nat, add: bool, amount: Cents, note: Option<string>, newId: string)
    : Step<Adjusted>
    requires i < |db.wallets|
  {
    if HasTxnId(db.txns, newId) then Step(db, Err(ServerError))
    else
      var w := db.wallets[i];
      var ws := Credit(db.wallets, i, if add then amount else -amount);
      var t := AuditRow(newId, admin, w.userId, add, amount, note);
      Step(db.(wallets := ws, txns := db.txns + [t]), Ok(Adjusted(ws[i], w.balance, ws[i].balance, amount)))
  }

  /** `admin_adjust_wallet` on the wallet with internal key `key`, acting admin
      `admin`. The wallet must exist (404), the amount be a positive number;
      "add" credits it, "deduct" debits it if the balance covers it, anything
      else is rejected. Every success appends one completed audit row. */
  function AdminAdjustWallet(db: Db, admin: UserId, key: nat, req: AdjustRequest, newId: string)
    : (step: Step<Adjusted>)
    ensures WalletByKey(db.wallets, key).None? ==> step == Step(db, Err(NotFound(AdjustedWallet)))
    ensures step.reply == Err(InvalidAmountFormat) <==>
              WalletByKey(db.wallets, key).Some? && ParseAmount(req.amount, Some(0)) == Err(ValueError)
    ensures (WalletByKey(db.wallets, key).Some? && ParseAmount(req.amount, Some(0)) == Err(TypeError))
            ==> step == Step(db, Err(ServerError))
    ensures (WalletByKey(db.wallets, key).Some? && ParseAmount(req.amount, Some(0)).Ok?
             && ParseAmount(req.amount, Some(0)).value <= 0) ==> step == Step(db, Err(InvalidAmount))
    ensures (WalletByKey(db.wallets, key).Some? && ParseAmount(req.amount, Some(0)).Ok?
             && ParseAmount(req.amount, Some(0)).value > 0
             && req.action != Some("add") && req.action != Some("deduct"))
            ==> step == Step(db, Err(InvalidAction))
    ensures step.reply == Err(InsufficientBalance) <==>
              && WalletByKey(db.wallets, key).Some?
              && ParseAmount(req.amount, Some(0)).Ok? && ParseAmount(req.amount, Some(0)).value > 0
              && req.action == Some("deduct")
              && db.wallets[WalletByKey(db.wallets, key).value].balance < ParseAmount(req.amount, Some(0)).value
    ensures step.reply.Err? ==> step.db == db
    ensures step.reply.Ok? <==>
              && WalletByKey(db.wallets, key).Some?
              && ParseAmount(req.amount, Some(0)).Ok? && ParseAmount(req.amount, Some(0)).value > 0
              && (|| req.action == Some("add")
                  || (&& req.action == Some("deduct")
                      && db.wallets[WalletByKey(db.wallets, key).value].balance >= ParseAmount(req.amount, Some(0)).value))
              && !HasTxnId(db.txns, newId)
    ensures step.reply.Ok? ==>
              && WalletByKey(db.wallets, key).Some? && ParseAmount(req.amount, Some(0)).Ok?
              && (req.action == Some("add") || req.action == Some("deduct"))
              && var i := WalletByKey(db.wallets, key).value;
                 var w := db.wallets[i];
                 var a := ParseAmount(req.amount, Some(0)).value;
                 var add := req.action == Some("add");
                 && a > 0
                 && step.db.wallets == Credit(db.wallets, i, if add then a else -a)
                 && (!add ==> step.db.wallets[i].balance >= 0)
                 && step.db.txns == db.txns + [AuditRow(newId, admin, w.userId, add, a, req.note)]
                 && step.db.users == db.users && step.db.notifications == db.notifications
                 && step.reply.value.oldBalance == w.balance
                 && step.reply.value.newBalance == (if add then w.balance + a else w.balance - a)
                 && step.reply.value.amountChanged == a
  {
    match WalletByKey(db.wallets, key)
    case None => Step(db, Err(NotFound(AdjustedWallet)))
    case Some(i) =>
      match ParseAmount(req.amount, Some(0))
      case Err(ValueError) => Step(db, Err(InvalidAmountFormat))
      case Err(TypeError) => Step(db, Err(ServerError))
      case Ok(amount) =>
        if amount <= 0 then Step(db, Err(InvalidAmount))
        else
          var w := db.wallets[i];
          if req.action == Some("add") then Commit(db, admin, i, true, amount, req.note, newId)
          else if req.action == Some("deduct") then
            if w.balance < amount then Step(db, Err(InsufficientBalance))
            else Commit(db, admin, i, false, amount, req.note, newId)
          else Step(db, Err(InvalidAction))
  }

  /** An adjustment moves the money held by all wallets by exactly the signed
      amount, and a consistent database stays consistent: a deduction never
      overdraws. */
  lemma AdjustAccounting(db: Db, admin: UserId, key: nat, req: AdjustRequest, newId: string)
    requires AdminAdjustWallet(db, admin, key, req, newId).reply.Ok?
    ensures var a := ParseAmount(req.amount, Some(0)).value;
            TotalBalance(AdminAdjustWallet(db, admin, key, req, newId).db.wallets)
            == TotalBalance(db.wallets) + (if req.action == Some("add") then a else -a)
    ensures Valid(db) ==> Valid(AdminAdjustWallet(db, admin, key, req, newId).db)
  {
    var i := WalletByKey(db.wallets, key).value;
    var a := ParseAmount(req.amount, Some(0)).value;
    var delta := if req.action == Some("add") then a else -a;
    CreditChangesTotal(db.wallets, i, delta);
    if Valid(db) {
      CreditKeepsValid(db, i, delta);
      AppendKeepsUniqueIds(db.txns, AuditRow(newId, admin, db.wallets[i].userId, req.action == Some("add"), a, req.note));
    }
  }
}

=== FILE: auth_routes.dfy ===
/** Registration (where every wallet is born, empty) and the login gate. */
module AuthRoutes {
  import opened Common
  import opened Money
  import opened Models
  import opened Store
  import opened Strings

  // ----- e-mail normalisation: `.lower().strip()` -----

  /** The form in which e-mails are stored and compared. */
  function NormalizeEmail(e: string): string
  {
    Strip(Lower(e))
  }

  /** A normalised address has no upper-case ASCII letter and no surrounding
      whitespace, and normalising it again changes nothing. */
  lemma NormalizeEmailIdempotent(e: string)
    ensures Trimmed(NormalizeEmail(e)) && NoUpper(NormalizeEmail(e))
    ensures NormalizeEmail(NormalizeEmail(e)) == NormalizeEmail(e)
  {
    var l := Lower(e);
    LowerHasNoUpper(e);
    var n := Strip(l);
    StripKeepsNoUpper(l);
    LowerOfNoUpper(n);
    assert Lower(n) == n;
    StripResult(l);
    StripResult(n);
    assert NormalizeEmail(n) == Strip(n) == n;
  }

  // ----- register -----

  /** The fields of a registration body; absent fields are `None`. */
  datatype RegisterRequest = RegisterRequest(
    firstName: Option<string>,
    lastName: Option<string>,
    email: Option<string>,
    password: Option<string>,
    phone: Option<string>,
    role: Option<string>)

  /** Column defaults of the user and wallet tables (their models are not part
      of this model). */
  datatype Defaults = Defaults(userStatus: string, walletCurrency: string, walletStatus: string)

  /** The keys the database and the id generator hand out for the new rows. */
  datatype FreshKeys = FreshKeys(userId: UserId, walletKey: nat, walletId: string)

  datatype Registered = Registered(user: User, wallet: Wallet)

  /** The first required field that is absent or empty, in the order checked. */
  function MissingRequired(req: RegisterRequest): (r: Option<string>)
    ensures r.None? <==> Given(req.firstName) && Given(req.lastName) && Given(req.email) && Given(req.password)
    ensures r == Some("first_name") <==> !Given(req.firstName)
    ensures r == Some("last_name") <==> Given(req.firstName) && !Given(req.lastName)
    ensures r == Some("email") <==> Given(req.firstName) && Given(req.lastName) && !Given(req.email)
    ensures r == Some("password") <==>
              Given(req.firstName) && Given(req.lastName) && Given(req.email) && !Given(req.password)
  {
    if !Given(req.firstName) then Some("first_name")
    else if !Given(req.lastName) then Some("last_name")
    else if !Given(req.email) then Some("email")
    else if !Given(req.password) then Some("password")
    else None
  }

  /** The user row a registration stores. */
  function NewUser(req: RegisterRequest, cfg: Defaults, id: UserId): (u: User)
    requires MissingRequired(req).None?
    ensures u.id == id && u.email == NormalizeEmail(req.email.value)
    ensures u.role == (if req.role.Some? then req.role.value else "user")
    ensures u.status == cfg.userStatus && u.credential == req.password.value
  {
    User(id, Strip(req.firstName.value), Strip(req.lastName.value), NormalizeEmail(req.email.value),
         if Given(req.phone) then Some(Strip(req.phone.value)) else None,
         match req.role case Some(r) => r case None => "user",
         cfg.userStatus, req.password.value)
  }

  /** Whether a generated key is already taken (the insert would fail). */
  predicate KeysTaken(db: Db, keys: FreshKeys)
  {
    UserById(db.users, keys.userId).Some? || WalletByKey(db.wallets, keys.walletKey).Some?
    || WalletById(db.wallets, keys.walletId).Some?
  }

  /** `register`: required fields, then the duplicate check on the normalised
      e-mail, then one user and one wallet with balance 0 for it. */
  function Register(db: Db, req: RegisterRequest, cfg: Defaults, keys: FreshKeys): (step: Step<Registered>)
    ensures MissingRequired(req).Some? ==> step == Step(db, Err(MissingField(MissingRequired(req).value)))
    ensures step.reply == Err(EmailTaken) <==>
              MissingRequired(req).None? && UserByEmail(db.users, NormalizeEmail(req.email.value)).Some?
    ensures step.reply.Err? ==> step.db == db
    ensures step.reply.Ok? <==>
              && MissingRequired(req).None?
              && UserByEmail(db.users, NormalizeEmail(req.email.value)).None?
              && !KeysTaken(db, keys)
    ensures step.reply.Ok? ==>
              var u := step.reply.value.user;
              var w := step.reply.value.wallet;
              && u == NewUser(req, cfg, keys.userId)
              && w == Wallet(keys.walletKey, keys.walletId, u.id, 0, cfg.walletCurrency, cfg.walletStatus)
              && step.db == db.(users := db.users + [u], wallets := db.wallets + [w])
  {
    match MissingRequired(req)
    case Some(f) => Step(db, Err(MissingField(f)))
    case None =>
      var email := NormalizeEmail(req.email.value);
      if UserByEmail(db.users, email).Some? then Step(db, Err(EmailTaken))
      else if KeysTaken(db, keys) then Step(db, Err(ServerError))
      else
        var u := NewUser(req, cfg, keys.userId);
        var w := Wallet(keys.walletKey, keys.walletId, u.id, 0, cfg.walletCurrency, cfg.walletStatus);
        Step(db.(users := db.users + [u], wallets := db.wallets + [w]), Ok(Registered(u, w)))
  }

  /** Registration keeps the database consistent: the new e-mail, user id,
      wallet key and wallet id are all unused, the new user had no wallet, and
      the new wallet's balance is 0. */
  lemma RegisterKeepsValid(db: Db, req: RegisterRequest, cfg: Defaults, keys: FreshKeys)
    requires Valid(db)
    ensures Valid(Register(db, req, cfg, keys).db)
  {
    var step := Register(db, req, cfg, keys);
    if step.reply.Ok? {
      var u := step.reply.value.user;
      var w := step.reply.value.wallet;
      var db' := step.db;
      assert forall j :: 0 <= j < |db.wallets| ==> db.wallets[j].userId != u.id by {
        forall j | 0 <= j < |db.wallets|
          ensures db.wallets[j].userId != u.id
        {
          assert UserById(db.users, db.wallets[j].userId).Some?;
        }
      }
      assert UsersWellKeyed(db'.users) by {
        forall i, j | 0 <= i < j < |db'.users|
          ensures db'.users[i].id != db'.users[j].id && db'.users[i].email != db'.users[j].email
        {
          if j == |db.users| {
            assert db'.users[i] == db.users[i];
          }
        }
      }
      assert WalletsWellKeyed(db'.wallets) by {
        forall i, j | 0 <= i < j < |db'.wallets|
          ensures db'.wallets[i].key != db'.wallets[j].key && db'.wallets[i].walletId != db'.wallets[j].walletId
                  && db'.wallets[i].userId != db'.wallets[j].userId
        {
          if j == |db.wallets| {
            assert db'.wallets[i] == db.wallets[i];
          }
        }
      }
      assert OwnersExist(db') by {
        forall i | 0 <= i < |db'.wallets|
          ensures UserById(db'.users, db'.wallets[i].userId).Some?
        {
          if i == |db.wallets| {
            assert db'.users[|db.users|] == u;
          } else {
            var k := UserById(db.users, db.wallets[i].userId).value;
            assert db'.users[k] == db.users[k];
          }
        }
      }
    }
  }

  /** Once an address is registered, registering it again, in any mix of case
      and surrounding whitespace, is refused and creates nothing. */
  lemma DuplicateRegistrationRefused(db: Db, r1: RegisterRequest, r2: RegisterRequest, cfg: Defaults,
                                     k1: FreshKeys, k2: FreshKeys)
    requires Register(db, r1, cfg, k1).reply.Ok?
    requires MissingRequired(r2).None?
    requires NormalizeEmail(r2.email.value) == NormalizeEmail(r1.email.value)
    ensures var db1 := Register(db, r1, cfg, k1).db;
            Register(db1, r2, cfg, k2) == Step(db1, Err(EmailTaken))
  {
    var db1 := Register(db, r1, cfg, k1).db;
    assert db1.users[|db.users|].email == NormalizeEmail(r2.email.value);
  }

  // ----- login -----

  datatype LoginRequest = LoginRequest(email: Option<string>, password: Option<string>)

  /** `login`: both fields required (400); an unknown address or a wrong
      password is 401; a user whose status is not "active" is refused (403)
      even with the right password. Login never changes the database. */
  function Login(db: Db, req: LoginRequest): (r: Result<UserId, Failure>)
    ensures !Given(req.email) || !Given(req.password) ==> r == Err(CredentialsRequired)
    ensures r.Ok? <==>
              && Given(req.email) && Given(req.password)
              && var k := UserByEmail(db.users, NormalizeEmail(req.email.value));
                 && k.Some?
                 && db.users[k.value].credential == req.password.value
                 && db.users[k.value].status == "active"
    ensures r.Ok? ==> r.value == db.users[UserByEmail(db.users, NormalizeEmail(req.email.value)).value].id
    ensures r == Err(BadCredentials) <==>
              && Given(req.email) && Given(req.password)
              && var k := UserByEmail(db.users, NormalizeEmail(req.email.value));
                 k.None? || db.users[k.value].credential != req.password.value
    ensures (Given(req.email) && Given(req.password)
             && UserByEmail(db.users, NormalizeEmail(req.email.value)).Some?
             && db.users[UserByEmail(db.users, NormalizeEmail(req.email.value)).value].credential == req.password.value
             && db.users[UserByEmail(db.users, NormalizeEmail(req.email.value)).value].status != "active")
            ==> r == Err(AccountInactive)
    ensures r.Err? ==> HttpStatus(r.error) in {400, 401, 403}
  {
    if !Given(req.email) || !Given(req.password) then Err(CredentialsRequired)
    else
      match UserByEmail(db.users, NormalizeEmail(req.email.value))
      case None => Err(BadCredentials)
      case Some(k) =>
        var u := db.users[k];
        if u.credential != req.password.value then Err(BadCredentials)
        else if u.status != "active" then Err(AccountInactive)
        else Ok(u.id)
  }

  /** Right after registering, the same credentials log in exactly when the
      default user status is "active", and then as the new user. */
  lemma RegisterThenLogin(db: Db, req: RegisterRequest, cfg: Defaults, keys: FreshKeys)
    requires Register(db, req, cfg, keys).reply.Ok?
    ensures var db1 := Register(db, req, cfg, keys).db;
            Login(db1, LoginRequest(req.email, req.password))
            == (if cfg.userStatus == "active" then Ok(keys.userId) else Err(AccountInactive))
  {
    var db1 := Register(db, req, cfg, keys).db;
    var e := NormalizeEmail(req.email.value);
    assert db1.users[|db.users|].email == e;
    assert forall j :: 0 <= j < |db.users| ==> db1.users[j].email != e;
    assert UserByEmail(db1.users, e) == Some(|db.users|);
  }
}

=== FILE: common.dfy ===
/** Shared vocabulary of the wallet backend model: optional values, results,
    the failure taxonomy of the HTTP handlers, and decoding of request fields. */
module Common {

  datatype Option<T> = None | Some(value: T)

  datatype Result<T, E> = Ok(value: T) | Err(error: E)

  /** The index of the first element satisfying `p`, the way a query's `.first()`
      returns the first matching row of a table. */
  function Find<T>(xs: seq<T>, p: T -> bool): (r: Option<nat>)
    ensures r.Some? ==> r.value < |xs| && p(xs[r.value])
    ensures r.Some? ==> forall j :: 0 <= j < r.value ==> !p(xs[j])
    ensures r.None? ==> forall j :: 0 <= j < |xs| ==> !p(xs[j])
  {
    if |xs| == 0 then None
    else if p(xs[0]) then Some(0)
    else
      match Find(xs[1..], p)
      case None =>
        assert forall j :: 1 <= j < |xs| ==> xs[j] == xs[1..][j - 1];
        None
      case Some(k) =>
        assert forall j :: 1 <= j <= k ==> xs[j] == xs[1..][j - 1];
        Some(k + 1)
  }

  /** Which lookup came back empty in a 404 reply. */
  datatype Entity = SenderWallet | ReceiverWallet | OwnWallet | AdjustedWallet
                  | TransactionRow | NotificationRow

  /** Every error reply the modelled handlers produce. */
  datatype Failure =
    | MissingField(field: string)     // a required registration field is absent or empty
    | EmailTaken                      // the normalised e-mail already has a user
    | CredentialsRequired             // login without e-mail or password
    | BadCredentials                  // unknown e-mail or wrong password
    | AccountInactive                 // the user's status is not "active"
    | InvalidWalletOrAmount           // transfer without receiver wallet id, or amount <= 0
    | InvalidAmount                   // amount <= 0
    | AmountOverLimit                 // direct top-up above the per-request maximum
    | InvalidAmountFormat             // the amount is not a number
    | SelfTransfer                    // sender and receiver wallet coincide
    | InsufficientBalance             // the debit exceeds the balance
    | InvalidAction                   // admin action other than "add" / "deduct"
    | GatewayRejected                 // the gateway did not answer ResponseCode "0"
    | NotFound(what: Entity)
    | NotParty                        // the transaction is neither sent nor received by the caller
    | NotOwner                        // the notification belongs to another user
    | ServerError                     // an exception escaped to the generic handler

  /** The HTTP status code of each failure. */
  function HttpStatus(f: Failure): int
  {
    match f
    case BadCredentials => 401
    case AccountInactive | NotParty | NotOwner => 403
    case NotFound(_) => 404
    case ServerError => 500
    case _ => 400
  }

  /** A monetary field of a JSON request body, as `float(...)` sees it:
      - `Absent`: the key is missing;
      - `Null`: null, a list or an object, on which `float` raises TypeError;
      - `Number`: a number, or a string `float` parses, read as integer cents;
      - `Malformed`: a string `float` cannot parse, on which it raises ValueError. */
  datatype AmountField = Absent | Null | Number(cents: int) | Malformed

  /** The two ways Python's `float(...)` fails on a request field. */
  datatype ParseError = TypeError | ValueError

  /** `float(data.get('amount', dflt))`: an absent field takes the default if
      there is one (`data.get('amount')` without a default yields `None`). */
  function ParseAmount(f: AmountField, dflt: Option<int>): (r: Result<int, ParseError>)
    ensures f.Number? ==> r == Ok(f.cents)
    ensures f.Absent? && dflt.Some? ==> r == Ok(dflt.value)
    ensures r.Ok? ==> f.Number? || (f.Absent? && dflt.Some?)
    ensures f.Malformed? <==> r == Err(ValueError)
    ensures r == Err(TypeError) <==> f.Null? || (f.Absent? && dflt.None?)
  {
    match f
    case Number(c) => Ok(c)
    case Malformed => Err(ValueError)
    case Null => Err(TypeError)
    case Absent => if dflt.Some? then Ok(dflt.value) else Err(TypeError)
  }

  /** A free-text field of a JSON request body: the key is missing, its
      value is null, or it is a string. */
  datatype TextField = Missing | JsonNull | Str(text: string)

  /** A scalar value inside a gateway callback. */
  datatype JsonValue = JNumber(cents: int) | JString(text: string) | JNull

  /** Python truthiness of an optional string field: present and non-empty. */
  predicate Given(s: Option<string>)
  {
    s.Some? && s.value != ""
  }
}

=== FILE: float_guards.dfy ===
/** The amount guards of the handlers evaluated on Python floats, which
    include NaN and the infinities. Every IEEE comparison with NaN is false,
    so a guard written as "reject when `amount <= 0`" lets NaN through. The
    rest of the model keeps money in finite integer cents, which is what the
    corrected guard guarantees. */
module FloatGuards {
  import opened Money
  import opened WalletRoutes

  /** A Python float, as far as the guards can tell: a finite value in cents,
      NaN, or an infinity of either sign. */
  datatype PyFloat = Finite(cents: Cents) | NaN | Inf(positive: bool)

  /** IEEE `<=`: false whenever either side is NaN. */
  predicate Le(a: PyFloat, b: PyFloat)
  {
    match (a, b)
    case (NaN, _) => false
    case (_, NaN) => false
    case (Inf(p), Inf(q)) => !p || q
    case (Inf(p), Finite(_)) => !p
    case (Finite(_), Inf(q)) => q
    case (Finite(x), Finite(y)) => x <= y
  }

  /** IEEE `<`: false whenever either side is NaN. */
  predicate Lt(a: PyFloat, b: PyFloat)
  {
    Le(a, b) && a != b
  }

  /** IEEE addition: NaN absorbs everything, and opposite infinities give NaN. */
  function Add(a: PyFloat, b: PyFloat): (r: PyFloat)
    ensures a.Finite? && b.Finite? ==> r == Finite(a.cents + b.cents)
    ensures a.NaN? || b.NaN? ==> r.NaN?
  {
    match (a, b)
    case (NaN, _) => NaN
    case (_, NaN) => NaN
    case (Inf(p), Inf(q)) => if p == q then Inf(p) else NaN
    case (Inf(p), Finite(_)) => Inf(p)
    case (Finite(_), Inf(q)) => Inf(q)
    case (Finite(x), Finite(y)) => Finite(x + y)
  }

  /** The guard of `add_funds` as written: refuse `amount <= 0`, refuse
      `amount > 10000`, accept the rest. On finite amounts it is the range
      (0, 10,000.00]; NaN passes both comparisons. */
  function TopUpPassesAsWritten(amount: PyFloat): (ok: bool)
    ensures amount.Finite? ==> (ok <==> 0 < amount.cents <= MaxTopUp)
    ensures amount.Inf? ==> !ok
    ensures amount.NaN? ==> ok
  {
    !Le(amount, Finite(0)) && !Lt(Finite(MaxTopUp), amount)
  }

  /** The balance check of `send_money` as written: refuse when
      `balance < total`. On finite values the balance must cover the total;
      a NaN on either side passes. */
  function SendCoveredAsWritten(balance: PyFloat, total: PyFloat): (ok: bool)
    ensures balance.Finite? && total.Finite? ==> (ok <==> balance.cents >= total.cents)
    ensures balance.NaN? || total.NaN? ==> ok
  {
    !Lt(balance, total)
  }

  /** A NaN top-up is accepted, turns the balance into NaN, and from then on
      that wallet passes the balance check for a transfer of any size. */
  lemma NaNTopUpPassesEveryCheck(balance: Cents, total: Cents)
    ensures TopUpPassesAsWritten(NaN)
    ensures Add(Finite(balance), NaN) == NaN
    ensures SendCoveredAsWritten(Add(Finite(balance), NaN), Finite(total))
  {
  }

  /** The evidently intended guard: the amount must also be finite
      (`math.isfinite`). It accepts exactly the finite amounts in
      (0, 10,000.00], the condition the top-up of the model checks on cents. */
  function TopUpPasses(amount: PyFloat): (ok: bool)
    ensures ok <==> amount.Finite? && 0 < amount.cents <= MaxTopUp
  {
    amount.Finite? && TopUpPassesAsWritten(amount)
  }

  /** Under the corrected guard a top-up keeps a finite, non-negative balance
      finite and non-negative, so the balance check keeps its meaning. */
  lemma CorrectedTopUpKeepsBalanceFinite(balance: Cents, amount: PyFloat, total: Cents)
    requires balance >= 0 && TopUpPasses(amount)
    ensures Add(Finite(balance), amount) == Finite(balance + amount.cents)
    ensures Le(Finite(0), Add(Finite(balance), amount))
    ensures SendCoveredAsWritten(Add(Finite(balance), amount), Finite(total))
            <==> balance + amount.cents >= total
  {
  }
}

=== FILE: ledger.dfy ===
/** The service as one state machine over the database: every request that
    writes is a step, and properties of whole runs of steps follow from the
    per-handler contracts. */
module Ledger {
  import opened Common
  import opened Models
  import opened Store
  import opened TransactionRoutes
  import opened WalletRoutes
  import opened AdminRoutes
  import opened AuthRoutes
  import opened NotificationRoutes

  /** Every request that can change the database, with the oracle values
      (fresh ids, the gateway's answer, the clock) its handler consumes. */
  datatype Request =
    | SendReq(sender: UserId, send: SendRequest, sendId: string)
    | TopUpReq(owner: UserId, topUp: AddFundsRequest, topUpId: string)
    | DepositReq(depositor: UserId, deposit: DepositRequest, gateway: GatewayReply, depositId: string)
    | CallbackReq(callback: Callback)
    | AdjustReq(admin: UserId, walletKey: nat, adjust: AdjustRequest, adjustId: string)
    | RegisterReq(register: RegisterRequest, defaults: Defaults, keys: FreshKeys)
    | NotifyReq(noteId: nat, recipient: UserId, title: string, message: string,
                kind: Option<string>, link: Option<string>)
    | MarkReadReq(reader: UserId, readId: nat, readAt: Timestamp)
    | MarkAllReq(allReader: UserId, allAt: Timestamp)
    | DeleteReq(deleter: UserId, deleteId: nat)
    | ClearReq(clearer: UserId)

  /** The database after handling one request. */
  function Apply(db: Db, r: Request): Db
  {
    match r
    case SendReq(u, req, id) => SendMoney(db, u, req, id).db
    case TopUpReq(u, req, id) => AddFundsToWallet(db, u, req, id).db
    case DepositReq(u, req, g, id) => StartMpesaDeposit(db, u, req, g, id).db
    case CallbackReq(cb) => MpesaCallback(db, cb).db
    case AdjustReq(a, key, req, id) => AdminAdjustWallet(db, a, key, req, id).db
    case RegisterReq(req, cfg, keys) => Register(db, req, cfg, keys).db
    case NotifyReq(id, u, title, message, kind, link) => CreateNotification(db, id, u, title, message, kind, link).db
    case MarkReadReq(u, id, now) => MarkRead(db, u, id, now).db
    case MarkAllReq(u, now) => MarkAllAsRead(db, u, now).db
    case DeleteReq(u, id) => DeleteNotification(db, u, id).db
    case ClearReq(u) => ClearAllNotifications(db, u).db
  }

  /** The database after handling the requests in order. */
  function Run(db: Db, rs: seq<Request>): Db
    decreases |rs|
  {
    if |rs| == 0 then db else Run(Apply(db, rs[0]), rs[1..])
  }

  /** The gateway does not report a negative settled amount. The callback
      handler does not check this itself. */
  predicate Sane(r: Request)
  {
    r.CallbackReq? ==> ReportedAmount(r.callback).None? || ReportedAmount(r.callback).value >= 0
  }

  // ----- consistency -----

  /** Appending a row with an unused id keeps a consistent database consistent. */
  lemma AppendKeepsValid(db: Db, t: Txn)
    requires Valid(db) && !HasTxnId(db.txns, t.transactionId)
    ensures Valid(db.(txns := db.txns + [t]))
  {
    AppendKeepsUniqueIds(db.txns, t);
  }

  lemma TopUpKeepsValid(db: Db, u: UserId, req: AddFundsRequest, id: string)
    requires Valid(db)
    ensures Valid(AddFundsToWallet(db, u, req, id).db)
  {
    if AddFundsToWallet(db, u, req, id).reply.Ok? {
      AddFundsAccounting(db, u, req, id);
    }
  }

  lemma DepositKeepsValid(db: Db, u: UserId, req: DepositRequest, g: GatewayReply, id: string)
    requires Valid(db)
    ensures Valid(StartMpesaDeposit(db, u, req, g, id).db)
  {
    if StartMpesaDeposit(db, u, req, g, id).reply.Ok? {
      AppendKeepsValid(db, PendingDeposit(id, u, ParseAmount(req.amount, None).value, g));
    }
  }

  lemma AdjustKeepsValid(db: Db, a: UserId, key: nat, req: AdjustRequest, id: string)
    requires Valid(db)
    ensures Valid(AdminAdjustWallet(db, a, key, req, id).db)
  {
    if AdminAdjustWallet(db, a, key, req, id).reply.Ok? {
      AdjustAccounting(db, a, key, req, id);
    }
  }

  lemma NotifyKeepsValid(db: Db, id: nat, u: UserId, title: string, message: string,
                         kind: Option<string>, link: Option<string>)
    requires Valid(db)
    ensures Valid(CreateNotification(db, id, u, title, message, kind, link).db)
  {
    if CreateNotification(db, id, u, title, message, kind, link).reply.Ok? {
      CreateNotificationCounts(db, id, u, title, message, kind, link, u, false);
    }
  }

  /** Every handler keeps the database consistent. */
  lemma ApplyKeepsValid(db: Db, r: Request)
    requires Valid(db) && Sane(r)
    ensures Valid(Apply(db, r))
  {
    match r
    case SendReq(u, req, id) => SendKeepsValid(db, u, req, id);
    case TopUpReq(u, req, id) => TopUpKeepsValid(db, u, req, id);
    case DepositReq(u, req, g, id) => DepositKeepsValid(db, u, req, g, id);
    case CallbackReq(cb) => CallbackAccounting(db, cb);
    case AdjustReq(a, key, req, id) => AdjustKeepsValid(db, a, key, req, id);
    case RegisterReq(req, cfg, keys) => RegisterKeepsValid(db, req, cfg, keys);
    case NotifyReq(id, u, title, message, kind, link) => NotifyKeepsValid(db, id, u, title, message, kind, link);
    case MarkReadReq(u, id, now) => InboxKeepsValid(db, u, id, now);
    case MarkAllReq(u, now) => InboxKeepsValid(db, u, 0, now);
    case DeleteReq(u, id) => InboxKeepsValid(db, u, id, 0);
    case ClearReq(u) => InboxKeepsValid(db, u, 0, 0);
  }

  /** Any run of requests keeps the database consistent: unique keys, one
      wallet per user, and no negative balance, ever. */
  lemma {:induction false} RunKeepsValid(db: Db, rs: seq<Request>)
    requires Valid(db)
    requires forall i :: 0 <= i < |rs| ==> Sane(rs[i])
    ensures Valid(Run(db, rs))
    decreases |rs|
  {
    if |rs| > 0 {
      ApplyKeepsValid(db, rs[0]);
      RunKeepsValid(Apply(db, rs[0]), rs[1..]);
    }
  }

  // ----- the ledger is append-only -----

  lemma AppendEvolves(ts: seq<Txn>, t: Txn)
    ensures LedgerEvolves(ts, ts + [t])
  {
    assert forall i :: 0 <= i < |ts| ==> (ts + [t])[i] == ts[i];
  }

  /** Every handler either leaves the ledger alone, appends one row, or
      resolves one pending row. */
  lemma ApplyEvolves(db: Db, r: Request)
    ensures LedgerEvolves(db.txns, Apply(db, r).txns)
  {
    var after := Apply(db, r).txns;
    if after != db.txns {
      match r
      case SendReq(u, req, id) =>
        var p := ValidateSend(db, u, req).value;
        AppendEvolves(db.txns, after[|db.txns|]);
        assert after == db.txns + [after[|db.txns|]];
      case TopUpReq(u, req, id) =>
        AppendEvolves(db.txns, AddFundsToWallet(db, u, req, id).reply.value.txn);
      case DepositReq(u, req, g, id) =>
        AppendEvolves(db.txns, PendingDeposit(id, u, ParseAmount(req.amount, None).value, g));
      case CallbackReq(cb) =>
      case AdjustReq(a, key, req, id) =>
        var i := WalletByKey(db.wallets, key).value;
        var amount := ParseAmount(req.amount, Some(0)).value;
        AppendEvolves(db.txns, AuditRow(id, a, db.wallets[i].userId, req.action == Some("add"), amount, req.note));
      case RegisterReq(req, cfg, keys) =>
      case NotifyReq(id, u, title, message, kind, link) =>
      case MarkReadReq(u, id, now) =>
      case MarkAllReq(u, now) =>
      case DeleteReq(u, id) =>
      case ClearReq(u) =>
    }
  }

  /** Ledger evolution composes. */
  lemma EvolvesTransitive(a: seq<Txn>, b: seq<Txn>, c: seq<Txn>)
    requires LedgerEvolves(a, b) && LedgerEvolves(b, c)
    ensures LedgerEvolves(a, c)
  {
    forall i | 0 <= i < |a|
      ensures Resolves(a[i], c[i])
    {
      assert Resolves(a[i], b[i]) && Resolves(b[i], c[i]);
    }
  }

  /** Over any run, rows are never removed and only pending rows change,
      each by being resolved. */
  lemma {:induction false} RunEvolves(db: Db, rs: seq<Request>)
    ensures LedgerEvolves(db.txns, Run(db, rs).txns)
    decreases |rs|
  {
    if |rs| > 0 {
      var db1 := Apply(db, rs[0]);
      ApplyEvolves(db, rs[0]);
      RunEvolves(db1, rs[1..]);
      EvolvesTransitive(db.txns, db1.txns, Run(db1, rs[1..]).txns);
    } else {
      assert forall i :: 0 <= i < |db.txns| ==> Resolves(db.txns[i], db.txns[i]);
    }
  }

  /** A completed or failed row stays exactly as it is, whatever follows. */
  lemma TerminalRowsAreFinal(db: Db, rs: seq<Request>, j: nat)
    requires j < |db.txns| && db.txns[j].status != Pending
    ensures j < |Run(db, rs).txns| && Run(db, rs).txns[j] == db.txns[j]
  {
    RunEvolves(db, rs);
  }

  // ----- a deposit is credited at most once -----

  /** Request `r` is a callback that credits a wallet for ledger row `j`. */
  predicate CreditsRow(db: Db, r: Request, j: nat)
  {
    && r.CallbackReq?
    && PendingByMerchant(db.txns, r.callback.merchantRequestId) == Some(j)
    && Apply(db, r).wallets != db.wallets
  }

  /** How many steps of a run credit a wallet for row `j`. */
  function CreditsOf(db: Db, rs: seq<Request>, j: nat): nat
    decreases |rs|
  {
    if |rs| == 0 then 0
    else (if CreditsRow(db, rs[0], j) then 1 else 0) + CreditsOf(Apply(db, rs[0]), rs[1..], j)
  }

  /** A row that is no longer pending is never credited again. */
  lemma {:induction false} NoCreditAfterResolution(db: Db, rs: seq<Request>, j: nat)
    requires j < |db.txns| && db.txns[j].status != Pending
    ensures CreditsOf(db, rs, j) == 0
    decreases |rs|
  {
    if |rs| > 0 {
      var db1 := Apply(db, rs[0]);
      ApplyEvolves(db, rs[0]);
      assert db1.txns[j] == db.txns[j];
      NoCreditAfterResolution(db1, rs[1..], j);
    }
  }

  /** However the gateway's callbacks and every other request interleave, and
      however often a callback is redelivered, each deposit row credits a
      wallet at most once: the credit resolves the row, and only pending rows
      are ever matched. */
  lemma {:induction false} CreditedAtMostOnce(db: Db, rs: seq<Request>, j: nat)
    ensures CreditsOf(db, rs, j) <= 1
    decreases |rs|
  {
    if |rs| > 0 {
      var db1 := Apply(db, rs[0]);
      if CreditsRow(db, rs[0], j) {
        assert db1.txns[j].status == Completed;
        NoCreditAfterResolution(db1, rs[1..], j);
      } else {
        CreditedAtMostOnce(db1, rs[1..], j);
      }
    }
  }
}

=== FILE: models.dfy ===
/** The persistent entities: users, wallets, ledger rows and notifications. */
module Models {
  import opened Common
  import opened Money

  type UserId = nat

  /** An opaque clock reading supplied by the caller (the handlers' `utcnow()`). */
  type Timestamp = nat

  /** A registered user. The stored credential stands for the password hash;
      checking a password is comparing with it. */
  datatype User = User(
    id: UserId,
    firstName: string,
    lastName: string,
    email: string,
    phone: Option<string>,
    role: string,
    status: string,
    credential: string)

  /** A user's wallet: `key` is the internal primary key used by the admin
      routes, `walletId` the public identifier used by transfers. */
  datatype Wallet = Wallet(
    key: nat,
    walletId: string,
    userId: UserId,
    balance: Cents,
    currency: string,
    status: string)

  /** The status vocabulary of a ledger row. */
  datatype TxStatus = Completed | Pending | Failed

  /** The kinds of ledger row the handlers write. */
  datatype TxType = Transfer | AddFunds | MpesaDeposit | AdminDeduction

  function StatusName(s: TxStatus): string
  {
    match s
    case Completed => "completed"
    case Pending => "pending"
    case Failed => "failed"
  }

  function TypeName(t: TxType): string
  {
    match t
    case Transfer => "transfer"
    case AddFunds => "add_funds"
    case MpesaDeposit => "mpesa_deposit"
    case AdminDeduction => "admin_deduction"
  }

  /** The audit note of a row. The mobile-money notes embed gateway values and
      are kept structured instead of formatted into text. */
  datatype Note =
    | Text(text: string)
    | MpesaPending(merchantRequestId: Option<string>)
    | MpesaSucceeded(receipt: Option<JsonValue>)
    | MpesaFailed(description: Option<string>)
    | NoNote                                     // the nullable column holds null

  /** The note stored from `data.get('note', dflt)`: the default when the key
      is missing, null when the body says null, the text otherwise. */
  function NoteOf(f: TextField, dflt: string): (n: Note)
    ensures f.Missing? ==> n == Text(dflt)
    ensures f.JsonNull? <==> n == NoNote
    ensures f.Str? ==> n == Text(f.text)
  {
    match f
    case Missing => Text(dflt)
    case JsonNull => NoNote
    case Str(s) => Text(s)
  }

  /** A ledger row. Identity, parties and amounts are required columns and so
      are never absent here; the two gateway correlation ids are nullable. */
  datatype Txn = Txn(
    transactionId: string,
    senderId: UserId,
    receiverId: UserId,
    amount: Cents,
    fee: Cents,
    totalAmount: Cents,
    kind: TxType,
    status: TxStatus,
    note: Note,
    merchantRequestId: Option<string>,
    checkoutRequestId: Option<string>,
    mpesaReceiptNumber: Option<string>)

  /** Building a row the way the ORM does: a column left out takes its
      default (fee 0, type transfer, status completed, correlation ids null). */
  function NewTxn(transactionId: string, senderId: UserId, receiverId: UserId,
                  amount: Cents, totalAmount: Cents, fee: Option<Cents>,
                  kind: Option<TxType>, status: Option<TxStatus>, note: Note,
                  merchantRequestId: Option<string>, checkoutRequestId: Option<string>): (t: Txn)
    ensures t.transactionId == transactionId && t.senderId == senderId && t.receiverId == receiverId
    ensures t.amount == amount && t.totalAmount == totalAmount && t.note == note
    ensures t.fee == (if fee.Some? then fee.value else 0)
    ensures t.kind == (if kind.Some? then kind.value else Transfer)
    ensures t.status == (if status.Some? then status.value else Completed)
    ensures t.merchantRequestId == merchantRequestId && t.checkoutRequestId == checkoutRequestId
    ensures t.mpesaReceiptNumber.None?
  {
    Txn(transactionId, senderId, receiverId, amount,
        match fee case Some(f) => f case None => 0,
        totalAmount,
        match kind case Some(k) => k case None => Transfer,
        match status case Some(s) => s case None => Completed,
        note, merchantRequestId, checkoutRequestId, None)
  }

  /** The serialised form of a row: every column as stored, except that the
      three amounts are rendered with two decimals and the enumerations by
      their names. */
  datatype TxnView = TxnView(
    transactionId: string,
    senderId: UserId,
    receiverId: UserId,
    amount: TwoDecimals,
    fee: TwoDecimals,
    totalAmount: TwoDecimals,
    kind: string,
    status: string,
    note: Note,
    merchantRequestId: Option<string>,
    checkoutRequestId: Option<string>,
    mpesaReceiptNumber: Option<string>)

  function ToView(t: Txn): (v: TxnView)
    ensures v.amount.WellFormed() && v.fee.WellFormed() && v.totalAmount.WellFormed()
    ensures FromView(v) == Some(t)
  {
    TxnView(t.transactionId, t.senderId, t.receiverId,
            ToTwoDecimals(t.amount), ToTwoDecimals(t.fee), ToTwoDecimals(t.totalAmount),
            TypeName(t.kind), StatusName(t.status), t.note,
            t.merchantRequestId, t.checkoutRequestId, t.mpesaReceiptNumber)
  }

  function ParseStatus(s: string): Option<TxStatus>
  {
    if s == "completed" then Some(Completed)
    else if s == "pending" then Some(Pending)
    else if s == "failed" then Some(Failed)
    else None
  }

  function ParseType(s: string): Option<TxType>
  {
    if s == "transfer" then Some(Transfer)
    else if s == "add_funds" then Some(AddFunds)
    else if s == "mpesa_deposit" then Some(MpesaDeposit)
    else if s == "admin_deduction" then Some(AdminDeduction)
    else None
  }

  /** Reading a serialised row back. */
  function FromView(v: TxnView): Option<Txn>
  {
    match (ParseType(v.kind), ParseStatus(v.status))
    case (Some(k), Some(s)) =>
      Some(Txn(v.transactionId, v.senderId, v.receiverId,
               FromTwoDecimals(v.amount), FromTwoDecimals(v.fee), FromTwoDecimals(v.totalAmount),
               k, s, v.note, v.merchantRequestId, v.checkoutRequestId, v.mpesaReceiptNumber))
    case _ => None
  }

  /** Serialisation is injective: two rows with the same view are the same row. */
  lemma ToViewInjective(a: Txn, b: Txn)
    requires ToView(a) == ToView(b)
    ensures a == b
  {
    assert Some(a) == FromView(ToView(a)) == FromView(ToView(b)) == Some(b);
  }

  /** An in-app notification. */
  datatype Notification = Notification(
    id: nat,
    userId: UserId,
    title: string,
    message: string,
    kind: string,
    isRead: bool,
    link: Option<string>,
    readAt: Option<Timestamp>)

  /** A freshly constructed notification: unread, never read, and of type
      "info" unless a type is given. */
  function NewNotification(id: nat, userId: UserId, title: string, message: string,
                           kind: Option<string>, link: Option<string>): (n: Notification)
    ensures n.id == id && n.userId == userId && n.title == title && n.message == message
    ensures n.link == link
    ensures n.kind == (if kind.Some? then kind.value else "info")
    ensures !n.isRead && n.readAt.None?
  {
    Notification(id, userId, title, message,
                 match kind case Some(k) => k case None => "info",
                 false, link, None)
  }

  /** `Notification.mark_as_read`: an unread notification becomes read and is
      stamped with the current time; a read one is left exactly as it was. */
  function MarkAsRead(n: Notification, now: Timestamp): (m: Notification)
    ensures m.isRead
    ensures !n.isRead ==> m == n.(isRead := true, readAt := Some(now))
    ensures n.isRead ==> m == n
  {
    if n.isRead then n else n.(isRead := true, readAt := Some(now))
  }

  /** Marking as read is idempotent, whatever the clock says the second time. */
  lemma MarkAsReadIdempotent(n: Notification, t1: Timestamp, t2: Timestamp)
    ensures MarkAsRead(MarkAsRead(n, t1), t2) == MarkAsRead(n, t1)
  {
  }
}

=== FILE: money.dfy ===
/** Money in integer cents, the transfer fee, and the two-decimal rendering
    used when a ledger row is serialised. */
module Money {

  /** An amount of money in cents (1/100 of the currency unit). */
  type Cents = int

  /** The fee on a transfer of `amount` cents: 1.5% (3/200) of it, rounded to whole
      cents, with an exact half-cent rounded up. The result is the unique
      whole number of cents nearest to amount * 3/200. */
  function CalculateFee(amount: Cents): (fee: Cents)
    ensures -100 < 200 * fee - 3 * amount <= 100
  {
    (3 * amount + 100) / 200
  }

  /** What a sender is debited: the amount plus its fee. The surcharge over
      the amount is 1.5% of it rounded half-up to whole cents, and on a
      non-negative amount the total lies between the amount and twice it. */
  function TotalWithFee(amount: Cents): (total: Cents)
    ensures -100 < 200 * (total - amount) - 3 * amount <= 100
    ensures amount >= 0 ==> amount <= total <= 2 * amount
  {
    amount + CalculateFee(amount)
  }

  /** The rounding rule picks exactly one value: any whole number of cents
      within half a cent of 1.5% of the amount (ties upward) is the fee. */
  lemma FeeIsUnique(amount: Cents, f: Cents)
    requires -100 < 200 * f - 3 * amount <= 100
    ensures f == CalculateFee(amount)
  {
    var g := CalculateFee(amount);
    assert -200 < 200 * (f - g) < 200;
  }

  /** On a non-negative amount the fee is between 0 and the amount, so the
      total is at least the amount and at most twice it. */
  lemma FeeBounds(amount: Cents)
    requires amount >= 0
    ensures 0 <= CalculateFee(amount) <= amount
    ensures amount <= TotalWithFee(amount) <= 2 * amount
  {
    var f := CalculateFee(amount);
    assert 200 * f <= 3 * amount + 100;
    assert -100 < 200 * f - 3 * amount;
  }

  /** A larger transfer never costs a smaller fee. */
  lemma FeeMonotone(a: Cents, b: Cents)
    requires a <= b
    ensures CalculateFee(a) <= CalculateFee(b)
  {
    var fa, fb := CalculateFee(a), CalculateFee(b);
    assert 200 * fa - 100 <= 3 * a <= 3 * b < 200 * fb + 100;
    assert 200 * (fa - fb) < 200;
  }

  /** The worked example: a 50.00 transfer costs 0.75, 50.75 in total. */
  lemma FiftyDollarTransfer()
    ensures CalculateFee(5000) == 75 && TotalWithFee(5000) == 5075
  {
    FeeIsUnique(5000, 75);
  }

  /** An amount shown with two decimals: whole units and hundredths. */
  datatype TwoDecimals = TwoDecimals(units: int, hundredths: nat)
  {
    predicate WellFormed() { hundredths < 100 }
  }

  /** The two-decimal rendering of an amount of cents (Python's `round(x, 2)`
      of a value that already has at most two decimals). */
  function ToTwoDecimals(c: Cents): (d: TwoDecimals)
    ensures d.WellFormed()
    ensures FromTwoDecimals(d) == c
  {
    TwoDecimals(c / 100, c % 100)
  }

  function FromTwoDecimals(d: TwoDecimals): Cents
  {
    d.units * 100 + d.hundredths
  }

  /** Rendering a well-formed two-decimal value back from its cents is
      the identity, so the rendering loses nothing. */
  lemma TwoDecimalsRoundTrip(d: TwoDecimals)
    requires d.WellFormed()
    ensures ToTwoDecimals(FromTwoDecimals(d)) == d
  {
    var c := FromTwoDecimals(d);
    var e := ToTwoDecimals(c);
    assert e.units * 100 + e.hundredths == d.units * 100 + d.hundredths;
    assert -100 < (e.units - d.units) * 100 < 100;
  }
}

=== FILE: notification_routes.dfy ===
/** The notification inbox: creation, listing with the unread filter, the
    per-item unread -> read transition, bulk mark-all, delete and clear. */
module NotificationRoutes {
  import opened Common
  import opened Models
  import opened Store
  import opened Strings

  // ----- counting -----

  /** Whether `n` is one of `u`'s notifications with read flag `read`. */
  predicate Counts(n: Notification, u: UserId, read: bool)
  {
    n.userId == u && n.isRead == read
  }

  /** How many of `u`'s notifications have read flag `read` (a `filter_by(...).count()`). */
  function Count(ns: seq<Notification>, u: UserId, read: bool): (c: nat)
    ensures c <= |ns|
    ensures c == 0 <==> forall i :: 0 <= i < |ns| ==> !Counts(ns[i], u, read)
  {
    if |ns| == 0 then 0
    else (if Counts(ns[0], u, read) then 1 else 0) + Count(ns[1..], u, read)
  }

  /** Counting distributes over concatenation. */
  lemma {:induction false} CountConcat(a: seq<Notification>, b: seq<Notification>, u: UserId, read: bool)
    ensures Count(a + b, u, read) == Count(a, u, read) + Count(b, u, read)
  {
    if |a| == 0 {
      assert a + b == b;
    } else {
      assert (a + b)[1..] == a[1..] + b;
      CountConcat(a[1..], b, u, read);
    }
  }

  /** The count of a sequence split around position `k`. */
  lemma CountAround(ns: seq<Notification>, k: nat, u: UserId, read: bool)
    requires k < |ns|
    ensures Count(ns, u, read)
            == Count(ns[..k], u, read) + (if Counts(ns[k], u, read) then 1 else 0) + Count(ns[k+1..], u, read)
  {
    assert ns == ns[..k] + ([ns[k]] + ns[k+1..]);
    CountConcat(ns[..k], [ns[k]] + ns[k+1..], u, read);
    CountConcat([ns[k]], ns[k+1..], u, read);
    assert ([ns[k]] + ns[k+1..])[1..] == ns[k+1..];
  }

  /** Replacing one notification changes each count by what the old and the
      new notification contribute to it. */
  lemma CountUpdate(ns: seq<Notification>, k: nat, m: Notification, u: UserId, read: bool)
    requires k < |ns|
    ensures Count(ns[k := m], u, read) + (if Counts(ns[k], u, read) then 1 else 0)
            == Count(ns, u, read) + (if Counts(m, u, read) then 1 else 0)
  {
    var ns' := ns[k := m];
    CountAround(ns, k, u, read);
    CountAround(ns', k, u, read);
    assert ns'[..k] == ns[..k];
    assert ns'[k+1..] == ns[k+1..];
  }

  /** Removing the notification at `k` removes its contribution to each count. */
  lemma CountRemove(ns: seq<Notification>, k: nat, u: UserId, read: bool)
    requires k < |ns|
    ensures Count(ns[..k] + ns[k+1..], u, read) + (if Counts(ns[k], u, read) then 1 else 0)
            == Count(ns, u, read)
  {
    CountAround(ns, k, u, read);
    CountConcat(ns[..k], ns[k+1..], u, read);
  }

  // ----- create_notification -----

  /** `create_notification` with the id the database assigns: one new unread
      notification for `userId`, of type "info" unless another is given. The
      helper catches nothing, so a clashing id propagates as a server error. */
  function CreateNotification(db: Db, newId: nat, userId: UserId, title: string, message: string,
                              kind: Option<string>, link: Option<string>): (step: Step<Notification>)
    ensures NotificationById(db.notifications, newId).Some? <==> step == Step(db, Err(ServerError))
    ensures NotificationById(db.notifications, newId).None? <==> step.reply.Ok?
    ensures step.reply.Ok? ==>
              var n := step.reply.value;
              && step.db == db.(notifications := db.notifications + [n])
              && n.id == newId && n.userId == userId && n.title == title && n.message == message
              && n.kind == (if kind.Some? then kind.value else "info") && n.link == link
              && !n.isRead && n.readAt.None?
  {
    if NotificationById(db.notifications, newId).Some? then Step(db, Err(ServerError))
    else
      var n := NewNotification(newId, userId, title, message, kind, link);
      Step(db.(notifications := db.notifications + [n]), Ok(n))
  }

  /** A new notification raises its recipient's unread count by one, leaves
      every other count alone, and keeps the ids unique. */
  lemma CreateNotificationCounts(db: Db, newId: nat, userId: UserId, title: string, message: string,
                                 kind: Option<string>, link: Option<string>, v: UserId, read: bool)
    requires CreateNotification(db, newId, userId, title, message, kind, link).reply.Ok?
    ensures var ns' := CreateNotification(db, newId, userId, title, message, kind, link).db.notifications;
            Count(ns', v, read) == Count(db.notifications, v, read) + (if v == userId && !read then 1 else 0)
    ensures UniqueNotificationIds(db.notifications) ==>
              UniqueNotificationIds(CreateNotification(db, newId, userId, title, message, kind, link).db.notifications)
  {
    var n := NewNotification(newId, userId, title, message, kind, link);
    CountConcat(db.notifications, [n], v, read);
    assert Count([n], v, read) == (if Counts(n, v, read) then 1 else 0) by {
      assert [n][1..] == [];
    }
  }

  // ----- get_notifications and get_unread_count -----

  /** The user's notifications, only the unread ones when `unreadOnly`, in
      table order. */
  function Owned(ns: seq<Notification>, u: UserId, unreadOnly: bool): (r: seq<Notification>)
    ensures forall n :: n in r <==> n in ns && n.userId == u && (unreadOnly ==> !n.isRead)
    ensures unreadOnly ==> |r| == Count(ns, u, false)
    ensures !unreadOnly ==> |r| == Count(ns, u, false) + Count(ns, u, true)
  {
    if |ns| == 0 then []
    else
      var rest := Owned(ns[1..], u, unreadOnly);
      assert forall n :: n in ns <==> n == ns[0] || n in ns[1..];
      if ns[0].userId == u && (unreadOnly ==> !ns[0].isRead) then [ns[0]] + rest else rest
  }

  /** The `unread_only` query parameter: "true" in any letter case; absent means "false". */
  function UnreadOnly(param: Option<string>): (b: bool)
    ensures param.None? ==> !b
    ensures b <==> param.Some? && |param.value| == 4
                   && LowerChar(param.value[0]) == 't' && LowerChar(param.value[1]) == 'r'
                   && LowerChar(param.value[2]) == 'u' && LowerChar(param.value[3]) == 'e'
  {
    var p := if param.Some? then param.value else "false";
    Lower(p) == "true"
  }

  datatype Listing = Listing(items: seq<Notification>, totalCount: nat, unreadCount: nat)

  /** `get_unread_count`: how many of `u`'s notifications are unread. */
  function UnreadCount(db: Db, u: UserId): (c: nat)
    ensures c <= |db.notifications|
    ensures c == 0 <==> forall n :: n in db.notifications && n.userId == u ==> n.isRead
  {
    Count(db.notifications, u, false)
  }

  /** `get_notifications`: the user's notifications, filtered to the unread
      ones when asked; `total_count` counts what the filter selects and
      `unread_count` the user's unread notifications either way. */
  function GetNotifications(db: Db, u: UserId, unreadOnly: Option<string>): (l: Listing)
    ensures forall n :: n in l.items <==>
              n in db.notifications && n.userId == u && (UnreadOnly(unreadOnly) ==> !n.isRead)
    ensures l.totalCount == |l.items|
    ensures l.unreadCount == UnreadCount(db, u)
    ensures UnreadOnly(unreadOnly) ==> l.totalCount == l.unreadCount
    ensures !UnreadOnly(unreadOnly) ==>
              l.totalCount == Count(db.notifications, u, false) + Count(db.notifications, u, true)
  {
    var items := Owned(db.notifications, u, UnreadOnly(unreadOnly));
    Listing(items, |items|, UnreadCount(db, u))
  }

  // ----- mark_as_read -----

  /** `mark_as_read` on notification `id` by user `u` at time `now`: 404 when
      there is no such notification, 403 when it is someone else's, otherwise
      the model's `mark_as_read`. */
  function MarkRead(db: Db, u: UserId, id: nat, now: Timestamp): (step: Step<Notification>)
    ensures NotificationById(db.notifications, id).None? ==> step == Step(db, Err(NotFound(NotificationRow)))
    ensures (NotificationById(db.notifications, id).Some?
             && db.notifications[NotificationById(db.notifications, id).value].userId != u)
            ==> step == Step(db, Err(NotOwner))
    ensures step.reply.Err? ==> step.db == db
    ensures step.reply.Ok? <==>
              && NotificationById(db.notifications, id).Some?
              && db.notifications[NotificationById(db.notifications, id).value].userId == u
    ensures step.reply.Ok? ==>
              && NotificationById(db.notifications, id).Some?
              && var k := NotificationById(db.notifications, id).value;
                 var n := db.notifications[k];
                 && n.userId == u
                 && step.reply.value == MarkAsRead(n, now)
                 && step.db == db.(notifications := db.notifications[k := MarkAsRead(n, now)])
  {
    match NotificationById(db.notifications, id)
    case None => Step(db, Err(NotFound(NotificationRow)))
    case Some(k) =>
      var n := db.notifications[k];
      if n.userId != u then Step(db, Err(NotOwner))
      else
        var m := MarkAsRead(n, now);
        Step(db.(notifications := db.notifications[k := m]), Ok(m))
  }

  /** Marking one notification read lowers its owner's unread count by one
      when it was unread and by nothing otherwise; every other user's counts
      are unchanged. A second request, at any time, changes nothing more. */
  lemma MarkReadCounts(db: Db, u: UserId, id: nat, now: Timestamp, later: Timestamp, v: UserId, read: bool)
    requires MarkRead(db, u, id, now).reply.Ok?
    ensures var k := NotificationById(db.notifications, id).value;
            var ns' := MarkRead(db, u, id, now).db.notifications;
            && Count(ns', u, false) == Count(db.notifications, u, false) - (if db.notifications[k].isRead then 0 else 1)
            && (v != u ==> Count(ns', v, read) == Count(db.notifications, v, read))
    ensures var db1 := MarkRead(db, u, id, now).db;
            MarkRead(db1, u, id, later).db == db1
  {
    var k := NotificationById(db.notifications, id).value;
    var m := MarkAsRead(db.notifications[k], now);
    CountUpdate(db.notifications, k, m, u, false);
    CountUpdate(db.notifications, k, m, v, read);
    var db1 := MarkRead(db, u, id, now).db;
    assert db1.notifications[k].id == id;
    var k1 := NotificationById(db1.notifications, id).value;
    assert k1 == k;
  }

  // ----- mark_all_as_read -----

  /** The bulk update: every unread notification of `u` becomes read with
      `read_at = now`; read ones and other users' ones are untouched. */
  function MarkAll(ns: seq<Notification>, u: UserId, now: Timestamp): (r: seq<Notification>)
    ensures |r| == |ns|
    ensures forall i :: 0 <= i < |ns| ==>
              r[i] == (if ns[i].userId == u then MarkAsRead(ns[i], now) else ns[i])
    ensures Count(r, u, false) == 0
    ensures Count(r, u, true) == Count(ns, u, true) + Count(ns, u, false)
    ensures forall v, read :: v != u ==> Count(r, v, read) == Count(ns, v, read)
  {
    if |ns| == 0 then []
    else
      var rest := MarkAll(ns[1..], u, now);
      var r := [if ns[0].userId == u then MarkAsRead(ns[0], now) else ns[0]] + rest;
      assert r[1..] == rest;
      r
  }

  /** `mark_all_as_read`: the update above, reporting how many rows it changed. */
  function MarkAllAsRead(db: Db, u: UserId, now: Timestamp): (step: Step<nat>)
    ensures step.reply == Ok(UnreadCount(db, u))
    ensures step.db.users == db.users && step.db.wallets == db.wallets && step.db.txns == db.txns
    ensures UnreadCount(step.db, u) == 0
    ensures Count(step.db.notifications, u, true) == Count(db.notifications, u, true) + UnreadCount(db, u)
    ensures forall v, read :: v != u ==> Count(step.db.notifications, v, read) == Count(db.notifications, v, read)
    ensures |step.db.notifications| == |db.notifications|
    ensures forall i :: 0 <= i < |db.notifications| ==>
              var n := db.notifications[i];
              var n' := step.db.notifications[i];
              if n.userId == u && !n.isRead then n' == n.(isRead := true, readAt := Some(now)) else n' == n
  {
    Step(db.(notifications := MarkAll(db.notifications, u, now)), Ok(Count(db.notifications, u, false)))
  }

  /** Marking all read a second time, at any time, reports 0 and changes nothing. */
  lemma MarkAllAsReadIdempotent(db: Db, u: UserId, now: Timestamp, later: Timestamp)
    ensures var db1 := MarkAllAsRead(db, u, now).db;
            MarkAllAsRead(db1, u, later) == Step(db1, Ok(0))
  {
    var db1 := MarkAllAsRead(db, u, now).db;
    var db2 := MarkAllAsRead(db1, u, later).db;
    assert db2.notifications == db1.notifications;
  }

  // ----- delete_notification -----

  /** `delete_notification`: 404 and 403 as for `mark_as_read`, otherwise that
      row is removed. */
  function DeleteNotification(db: Db, u: UserId, id: nat): (step: Step<()>)
    ensures NotificationById(db.notifications, id).None? ==> step == Step(db, Err(NotFound(NotificationRow)))
    ensures (NotificationById(db.notifications, id).Some?
             && db.notifications[NotificationById(db.notifications, id).value].userId != u)
            ==> step == Step(db, Err(NotOwner))
    ensures step.reply.Err? ==> step.db == db
    ensures step.reply.Ok? <==>
              && NotificationById(db.notifications, id).Some?
              && db.notifications[NotificationById(db.notifications, id).value].userId == u
    ensures step.reply.Ok? ==>
              && NotificationById(db.notifications, id).Some?
              && var k := NotificationById(db.notifications, id).value;
                 && db.notifications[k].userId == u
                 && step.db == db.(notifications := db.notifications[..k] + db.notifications[k+1..])
  {
    match NotificationById(db.notifications, id)
    case None => Step(db, Err(NotFound(NotificationRow)))
    case Some(k) =>
      if db.notifications[k].userId != u then Step(db, Err(NotOwner))
      else Step(db.(notifications := db.notifications[..k] + db.notifications[k+1..]), Ok(()))
  }

  /** Removing position `k` of a sequence with unique ids removes exactly the
      element with that id. */
  lemma RemoveAtMembers(ns: seq<Notification>, k: nat)
    requires UniqueNotificationIds(ns) && k < |ns|
    ensures forall n :: n in ns[..k] + ns[k+1..] <==> n in ns && n.id != ns[k].id
  {
    var ns' := ns[..k] + ns[k+1..];
    forall n
      ensures n in ns' <==> n in ns && n.id != ns[k].id
    {
      if n in ns && n.id != ns[k].id {
        var j :| 0 <= j < |ns| && ns[j] == n;
        if j < k { assert ns'[j] == n; } else { assert ns'[j - 1] == n; }
      }
      if n in ns' {
        var j :| 0 <= j < |ns'| && ns'[j] == n;
        if j < k {
          assert ns[j] == n;
        } else {
          assert ns[j + 1] == n;
        }
      }
    }
  }

  lemma RemoveAtKeepsUniqueIds(ns: seq<Notification>, k: nat)
    requires UniqueNotificationIds(ns) && k < |ns|
    ensures UniqueNotificationIds(ns[..k] + ns[k+1..])
  {
    var ns' := ns[..k] + ns[k+1..];
    forall i, j | 0 <= i < j < |ns'|
      ensures ns'[i].id != ns'[j].id
    {
      var i0 := if i < k then i else i + 1;
      var j0 := if j < k then j else j + 1;
      assert ns'[i] == ns[i0] && ns'[j] == ns[j0];
    }
  }

  /** With unique ids, a successful delete removes exactly the notification
      with that id: one row fewer, every other row still there, and only its
      own count drops. */
  lemma DeleteRemovesExactlyOne(db: Db, u: UserId, id: nat, v: UserId, read: bool)
    requires UniqueNotificationIds(db.notifications)
    requires DeleteNotification(db, u, id).reply.Ok?
    ensures var ns := db.notifications;
            var ns' := DeleteNotification(db, u, id).db.notifications;
            && |ns'| == |ns| - 1
            && (forall n :: n in ns' <==> n in ns && n.id != id)
            && UniqueNotificationIds(ns')
    ensures var ns := db.notifications;
            var k := NotificationById(ns, id).value;
            Count(DeleteNotification(db, u, id).db.notifications, v, read)
            == Count(ns, v, read) - (if Counts(ns[k], v, read) then 1 else 0)
  {
    var ns := db.notifications;
    var k := NotificationById(ns, id).value;
    RemoveAtMembers(ns, k);
    RemoveAtKeepsUniqueIds(ns, k);
    CountRemove(ns, k, v, read);
  }

  // ----- clear_all_notifications -----

  /** The bulk delete: `u`'s read notifications go, everything else stays in order. */
  function ClearRead(ns: seq<Notification>, u: UserId): (r: seq<Notification>)
    ensures forall n :: n in r <==> n in ns && !Counts(n, u, true)
    ensures |r| == |ns| - Count(ns, u, true)
    ensures Count(r, u, true) == 0 && Count(r, u, false) == Count(ns, u, false)
    ensures forall v, read :: v != u ==> Count(r, v, read) == Count(ns, v, read)
  {
    if |ns| == 0 then []
    else
      var rest := ClearRead(ns[1..], u);
      assert forall n :: n in ns <==> n == ns[0] || n in ns[1..];
      if Counts(ns[0], u, true) then rest
      else
        var r := [ns[0]] + rest;
        assert r[1..] == rest;
        r
  }

  /** Clearing keeps distinct ids distinct. */
  lemma {:induction false} ClearReadKeepsUniqueIds(ns: seq<Notification>, u: UserId)
    requires UniqueNotificationIds(ns)
    ensures UniqueNotificationIds(ClearRead(ns, u))
  {
    if |ns| > 0 {
      assert UniqueNotificationIds(ns[1..]) by {
        forall i, j | 0 <= i < j < |ns[1..]|
          ensures ns[1..][i].id != ns[1..][j].id
        {
          assert ns[1..][i] == ns[i + 1] && ns[1..][j] == ns[j + 1];
        }
      }
      ClearReadKeepsUniqueIds(ns[1..], u);
      var rest := ClearRead(ns[1..], u);
      if !Counts(ns[0], u, true) {
        forall n | n in rest
          ensures n.id != ns[0].id
        {
          assert n in ns[1..];
          var m :| 0 <= m < |ns| - 1 && ns[m + 1] == n;
        }
        PrependKeepsUniqueIds(ns[0], rest);
      }
    }
  }

  lemma PrependKeepsUniqueIds(n: Notification, rest: seq<Notification>)
    requires UniqueNotificationIds(rest)
    requires forall m :: m in rest ==> m.id != n.id
    ensures UniqueNotificationIds([n] + rest)
  {
    var r := [n] + rest;
    forall i, j | 0 <= i < j < |r|
      ensures r[i].id != r[j].id
    {
      assert r[j] == rest[j - 1];
      if i > 0 {
        assert r[i] == rest[i - 1];
      }
    }
  }

  /** `clear_all_notifications`: deletes the user's read notifications and
      reports how many. */
  function ClearAllNotifications(db: Db, u: UserId): (step: Step<nat>)
    ensures step.reply.Ok?
    ensures step.db.users == db.users && step.db.wallets == db.wallets && step.db.txns == db.txns
    ensures forall n :: n in step.db.notifications <==>
              n in db.notifications && !(n.userId == u && n.isRead)
    ensures |step.db.notifications| + step.reply.value == |db.notifications|
    ensures Count(step.db.notifications, u, true) == 0
    ensures UnreadCount(step.db, u) == UnreadCount(db, u)
    ensures forall v, read :: v != u ==> Count(step.db.notifications, v, read) == Count(db.notifications, v, read)
  {
    Step(db.(notifications := ClearRead(db.notifications, u)), Ok(Count(db.notifications, u, true)))
  }

  /** Clearing twice deletes nothing the second time; clearing right after
      marking all read empties the user's inbox. */
  lemma ClearAfterMarkAll(db: Db, u: UserId, now: Timestamp)
    ensures var db1 := ClearAllNotifications(db, u).db;
            ClearAllNotifications(db1, u) == Step(db1, Ok(0))
    ensures var db2 := ClearAllNotifications(MarkAllAsRead(db, u, now).db, u).db;
            forall n :: n in db2.notifications ==> n.userId != u
  {
    var db1 := ClearAllNotifications(db, u).db;
    assert ClearRead(db1.notifications, u) == db1.notifications by {
      ClearReadOfNoneRead(db1.notifications, u);
    }
    var m := MarkAllAsRead(db, u, now).db;
    assert forall n :: n in m.notifications && n.userId == u ==> n.isRead;
  }

  /** Clearing a sequence with none of `u`'s read notifications keeps it as is. */
  lemma {:induction false} ClearReadOfNoneRead(ns: seq<Notification>, u: UserId)
    requires Count(ns, u, true) == 0
    ensures ClearRead(ns, u) == ns
  {
    if |ns| > 0 {
      ClearReadOfNoneRead(ns[1..], u);
      assert [ns[0]] + ns[1..] == ns;
    }
  }

  /** A database whose notification table alone is replaced by one with
      unique ids stays consistent. */
  lemma NotificationsOnly(db: Db, ns: seq<Notification>)
    requires Valid(db) && UniqueNotificationIds(ns)
    ensures Valid(db.(notifications := ns))
  {
  }

  /** Every inbox operation touches the notification table only, and keeps its
      ids unique; so it keeps the whole database consistent. */
  lemma InboxKeepsValid(db: Db, u: UserId, id: nat, now: Timestamp)
    requires Valid(db)
    ensures Valid(MarkRead(db, u, id, now).db)
    ensures Valid(MarkAllAsRead(db, u, now).db)
    ensures Valid(DeleteNotification(db, u, id).db)
    ensures Valid(ClearAllNotifications(db, u).db)
  {
    var ns := db.notifications;
    if DeleteNotification(db, u, id).reply.Ok? {
      RemoveAtKeepsUniqueIds(ns, NotificationById(ns, id).value);
      NotificationsOnly(db, DeleteNotification(db, u, id).db.notifications);
    }
    ClearReadKeepsUniqueIds(ns, u);
    NotificationsOnly(db, ClearRead(ns, u));
    SameIdsKeepUnique(ns, MarkAll(ns, u, now));
    NotificationsOnly(db, MarkAll(ns, u, now));
    if MarkRead(db, u, id, now).reply.Ok? {
      var k := NotificationById(ns, id).value;
      SameIdsKeepUnique(ns, ns[k := MarkAsRead(ns[k], now)]);
      NotificationsOnly(db, ns[k := MarkAsRead(ns[k], now)]);
    }
  }

  lemma SameIdsKeepUnique(ns: seq<Notification>, ns': seq<Notification>)
    requires UniqueNotificationIds(ns) && |ns'| == |ns|
    requires forall i :: 0 <= i < |ns| ==> ns'[i].id == ns[i].id
    ensures UniqueNotificationIds(ns')
  {
  }

  // ----- finding: `to_dict` renders the class-level `metadata` -----

  /* The JSON column is `meta_data` (`metadata` is reserved by the ORM's
     declarative base), but `to_dict` renders `self.metadata`. On a row loaded
     from the database that is the table registry of the ORM, which `jsonify`
     cannot serialise, so every reply that renders a stored notification fails
     into the generic 500 handler. The members below are the two routes as
     written; `MarkRead` and `GetNotifications` are the intended replies, with
     `meta_data` rendered. */

  /** `mark_as_read` as written. The mark is committed inside the model's
      `mark_as_read` before `to_dict` runs, so the owner's request changes
      the database as intended and still replies 500. No request succeeds. */
  function MarkReadAsWritten(db: Db, u: UserId, id: nat, now: Timestamp): (step: Step<Notification>)
    ensures step.reply.Err?
    ensures step.reply == Err(ServerError) <==>
              NotificationById(db.notifications, id).Some?
              && db.notifications[NotificationById(db.notifications, id).value].userId == u
    ensures step.reply == Err(ServerError) ==>
              var k := NotificationById(db.notifications, id).value;
              && |step.db.notifications| == |db.notifications|
              && step.db.notifications[k].isRead
              && (forall j :: 0 <= j < |db.notifications| && j != k ==> step.db.notifications[j] == db.notifications[j])
    ensures step.reply != Err(ServerError) ==> step.db == db
  {
    var s := MarkRead(db, u, id, now);
    match s.reply
    case Ok(_) => Step(s.db, Err(ServerError))
    case Err(e) => s
  }

  /** `get_notifications` as written: it succeeds only when the selection is
      empty, and then with the listing of the intended route. */
  function GetNotificationsAsWritten(db: Db, u: UserId, unreadOnly: Option<string>): (r: Result<Listing, Failure>)
    ensures r.Ok? <==> forall n :: n in db.notifications && n.userId == u ==> UnreadOnly(unreadOnly) && n.isRead
    ensures r.Err? ==> r.error == ServerError
    ensures r.Ok? ==> r.value.items == [] && r.value.unreadCount == UnreadCount(db, u)
  {
    var l := GetNotifications(db, u, unreadOnly);
    if |l.items| > 0 then
      assert l.items[0] in l.items;
      Err(ServerError)
    else Ok(l)
  }

  /** One unread notification of user 7, read back by its owner: as written,
      marking it read replies 500 although the mark is stored, and listing
      the inbox replies 500; the intended routes reply with the notification. */
  lemma StoredMetadataBreaksReplies()
    ensures var n := NewNotification(1, 7, "Money received", "You received 50.00", None, None);
            var db := Db([], [], [], [n]);
            && MarkReadAsWritten(db, 7, 1, 100) == Step(Db([], [], [], [MarkAsRead(n, 100)]), Err(ServerError))
            && MarkRead(db, 7, 1, 100) == Step(Db([], [], [], [MarkAsRead(n, 100)]), Ok(MarkAsRead(n, 100)))
            && GetNotificationsAsWritten(db, 7, None) == Err(ServerError)
            && GetNotifications(db, 7, None).items == [n]
  {
    var n := NewNotification(1, 7, "Money received", "You received 50.00", None, None);
    var db := Db([], [], [], [n]);
    assert NotificationById(db.notifications, 1) == Some(0);
    var l := GetNotifications(db, 7, None);
    assert n in l.items;
    assert forall m :: m in l.items ==> m == n;
    assert |l.items| == 1;
  }
}

=== FILE: store.dfy ===
/** The database as one immutable value, the lookups the handlers run against
    it, and the integrity rules every handler keeps. */
module Store {
  import opened Common
  import opened Money
  import opened Models

  /** All tables. Row order is insertion order. */
  datatype Db = Db(
    users: seq<User>,
    wallets: seq<Wallet>,
    txns: seq<Txn>,
    notifications: seq<Notification>)

  /** The outcome of one request: the database after it (the committed state,
      or the unchanged one after a rejection or rollback) and the reply. */
  datatype Step<R> = Step(db: Db, reply: Result<R, Failure>)

  // ----- lookups: the first row matching a key -----

  function UserById(us: seq<User>, id: UserId): (r: Option<nat>)
    ensures r.Some? ==> r.value < |us| && us[r.value].id == id
    ensures r.None? ==> forall j :: 0 <= j < |us| ==> us[j].id != id
  {
    Find(us, (u: User) => u.id == id)
  }

  function UserByEmail(us: seq<User>, email: string): (r: Option<nat>)
    ensures r.Some? ==> r.value < |us| && us[r.value].email == email
    ensures r.Some? ==> forall j :: 0 <= j < r.value ==> us[j].email != email
    ensures r.None? ==> forall j :: 0 <= j < |us| ==> us[j].email != email
  {
    Find(us, (u: User) => u.email == email)
  }

  function WalletOfUser(ws: seq<Wallet>, u: UserId): (r: Option<nat>)
    ensures r.Some? ==> r.value < |ws| && ws[r.value].userId == u
    ensures r.Some? ==> forall j :: 0 <= j < r.value ==> ws[j].userId != u
    ensures r.None? ==> forall j :: 0 <= j < |ws| ==> ws[j].userId != u
  {
    Find(ws, (w: Wallet) => w.userId == u)
  }

  function WalletById(ws: seq<Wallet>, walletId: string): (r: Option<nat>)
    ensures r.Some? ==> r.value < |ws| && ws[r.value].walletId == walletId
    ensures r.None? ==> forall j :: 0 <= j < |ws| ==> ws[j].walletId != walletId
  {
    Find(ws, (w: Wallet) => w.walletId == walletId)
  }

  function WalletByKey(ws: seq<Wallet>, key: nat): (r: Option<nat>)
    ensures r.Some? ==> r.value < |ws| && ws[r.value].key == key
    ensures r.None? ==> forall j :: 0 <= j < |ws| ==> ws[j].key != key
  {
    Find(ws, (w: Wallet) => w.key == key)
  }

  function TxnById(ts: seq<Txn>, id: string): (r: Option<nat>)
    ensures r.Some? ==> r.value < |ts| && ts[r.value].transactionId == id
    ensures r.None? ==> forall j :: 0 <= j < |ts| ==> ts[j].transactionId != id
  {
    Find(ts, (t: Txn) => t.transactionId == id)
  }

  function NotificationById(ns: seq<Notification>, id: nat): (r: Option<nat>)
    ensures r.Some? ==> r.value < |ns| && ns[r.value].id == id
    ensures r.None? ==> forall j :: 0 <= j < |ns| ==> ns[j].id != id
  {
    Find(ns, (n: Notification) => n.id == id)
  }

  /** Whether a transaction id is already used (the unique column would reject it). */
  predicate HasTxnId(ts: seq<Txn>, id: string)
  {
    exists j :: 0 <= j < |ts| && ts[j].transactionId == id
  }

  // ----- integrity rules -----

  ghost predicate UniqueTxnIds(ts: seq<Txn>)
  {
    forall i, j :: 0 <= i < j < |ts| ==> ts[i].transactionId != ts[j].transactionId
  }

  ghost predicate WalletsWellKeyed(ws: seq<Wallet>)
  {
    forall i, j :: 0 <= i < j < |ws| ==>
      ws[i].key != ws[j].key && ws[i].walletId != ws[j].walletId && ws[i].userId != ws[j].userId
  }

  ghost predicate UsersWellKeyed(us: seq<User>)
  {
    forall i, j :: 0 <= i < j < |us| ==> us[i].id != us[j].id && us[i].email != us[j].email
  }

  ghost predicate NoOverdraft(ws: seq<Wallet>)
  {
    forall i :: 0 <= i < |ws| ==> ws[i].balance >= 0
  }

  ghost predicate OwnersExist(db: Db)
  {
    forall i :: 0 <= i < |db.wallets| ==> UserById(db.users, db.wallets[i].userId).Some?
  }

  ghost predicate UniqueNotificationIds(ns: seq<Notification>)
  {
    forall i, j :: 0 <= i < j < |ns| ==> ns[i].id != ns[j].id
  }

  /** The database's integrity: unique keys in every table, one wallet per user
      and an existing owner for every wallet, and no negative balance. */
  ghost predicate Valid(db: Db)
  {
    && UsersWellKeyed(db.users)
    && WalletsWellKeyed(db.wallets)
    && OwnersExist(db)
    && NoOverdraft(db.wallets)
    && UniqueTxnIds(db.txns)
    && UniqueNotificationIds(db.notifications)
  }

  // ----- balance arithmetic -----

  /** Changing one wallet's balance by `delta`, every other column and wallet untouched. */
  function Credit(ws: seq<Wallet>, i: nat, delta: Cents): (ws': seq<Wallet>)
    requires i < |ws|
    ensures |ws'| == |ws|
    ensures ws'[i] == ws[i].(balance := ws[i].balance + delta)
    ensures forall j :: 0 <= j < |ws| && j != i ==> ws'[j] == ws[j]
  {
    ws[i := ws[i].(balance := ws[i].balance + delta)]
  }

  /** The money held by all wallets together. */
  function TotalBalance(ws: seq<Wallet>): Cents
  {
    if |ws| == 0 then 0 else ws[0].balance + TotalBalance(ws[1..])
  }

  /** Crediting one wallet by `delta` changes the total by exactly `delta`. */
  lemma {:induction false} CreditChangesTotal(ws: seq<Wallet>, i: nat, delta: Cents)
    requires i < |ws|
    ensures TotalBalance(Credit(ws, i, delta)) == TotalBalance(ws) + delta
  {
    var ws' := Credit(ws, i, delta);
    if i == 0 {
      assert ws'[1..] == ws[1..];
    } else {
      assert ws'[1..] == Credit(ws[1..], i - 1, delta);
      CreditChangesTotal(ws[1..], i - 1, delta);
    }
  }

  // ----- evolution of the ledger -----

  /** A row either stays as it was or, while pending, is resolved: its status
      becomes terminal and its note may be rewritten, nothing else changes. */
  predicate Resolves(before: Txn, after: Txn)
  {
    before == after
    || (before.status == Pending && after.status != Pending
        && after == before.(status := after.status, note := after.note))
  }

  /** The ledger only grows, and existing rows change only by resolution. */
  predicate LedgerEvolves(ts: seq<Txn>, ts': seq<Txn>)
  {
    |ts| <= |ts'| && forall i :: 0 <= i < |ts| ==> Resolves(ts[i], ts'[i])
  }

  /** Appending one fresh row keeps the row ids unique. */
  lemma AppendKeepsUniqueIds(ts: seq<Txn>, t: Txn)
    requires UniqueTxnIds(ts)
    requires !HasTxnId(ts, t.transactionId)
    ensures UniqueTxnIds(ts + [t])
  {
    var ts' := ts + [t];
    forall i, j | 0 <= i < j < |ts'|
      ensures ts'[i].transactionId != ts'[j].transactionId
    {
      if j == |ts| {
        assert ts'[i] == ts[i];
      }
    }
  }

  /** Balance updates keep keys and owners, so every rule except the overdraft
      one carries over; the overdraft rule carries over when the new balance
      is non-negative. */
  lemma CreditKeepsValid(db: Db, i: nat, delta: Cents)
    requires Valid(db) && i < |db.wallets|
    requires db.wallets[i].balance + delta >= 0
    ensures Valid(db.(wallets := Credit(db.wallets, i, delta)))
  {
    var ws' := Credit(db.wallets, i, delta);
    assert forall j :: 0 <= j < |ws'| ==> ws'[j].userId == db.wallets[j].userId;
  }
}

=== FILE: strings.dfy ===
/** The few Python string methods the handlers apply to request fields:
    `lower`, `strip` and truthiness. */
module Strings {

  /** Python's `str.isspace` on a single character. */
  predicate IsSpace(c: char)
  {
    var n := c as int;
    n == 32 || 9 <= n <= 13 || 28 <= n <= 31 || n == 0x85 || n == 0xA0 || n == 0x1680
    || 0x2000 <= n <= 0x200A || n == 0x2028 || n == 0x2029 || n == 0x202F || n == 0x205F || n == 0x3000
  }

  function LowerChar(c: char): char
  {
    if 'A' <= c <= 'Z' then (c as int + 32) as char else c
  }

  /** `str.lower()` on ASCII letters. */
  function Lower(s: string): (r: string)
    ensures |r| == |s| && forall i :: 0 <= i < |s| ==> r[i] == LowerChar(s[i])
  {
    seq(|s|, i requires 0 <= i < |s| => LowerChar(s[i]))
  }

  /** `str.lstrip()`: drop the leading whitespace. */
  function TrimStart(s: string): (r: string)
    ensures |r| <= |s| && r == s[|s| - |r|..]
    ensures forall j :: 0 <= j < |s| - |r| ==> IsSpace(s[j])
    ensures |r| > 0 ==> !IsSpace(r[0])
  {
    if |s| > 0 && IsSpace(s[0]) then TrimStart(s[1..]) else s
  }

  /** `str.rstrip()`: drop the trailing whitespace. */
  function TrimEnd(s: string): (r: string)
    ensures |r| <= |s| && r == s[..|r|]
    ensures forall j :: |r| <= j < |s| ==> IsSpace(s[j])
    ensures |r| > 0 ==> !IsSpace(r[|r| - 1])
  {
    if |s| > 0 && IsSpace(s[|s| - 1]) then TrimEnd(s[..|s| - 1]) else s
  }

  /** `str.strip()`. */
  function Strip(s: string): string
  {
    TrimEnd(TrimStart(s))
  }

  /** A string with no whitespace at either end. */
  predicate Trimmed(s: string)
  {
    |s| == 0 || (!IsSpace(s[0]) && !IsSpace(s[|s| - 1]))
  }

  lemma {:induction false} StripResult(s: string)
    ensures Trimmed(Strip(s))
    ensures Trimmed(s) ==> Strip(s) == s
  {
    var a := TrimStart(s);
    var b := TrimEnd(a);
    if |b| > 0 {
      assert b[0] == a[0];
    }
    if Trimmed(s) && |s| > 0 {
      assert |a| == |s|;
      assert |b| == |a|;
    }
  }

  /** No upper-case ASCII letter occurs in the string. */
  predicate NoUpper(s: string)
  {
    forall i :: 0 <= i < |s| ==> !('A' <= s[i] <= 'Z')
  }

  /** Lower-casing leaves no upper-case ASCII letter. */
  lemma LowerHasNoUpper(s: string)
    ensures NoUpper(Lower(s))
  {
    forall i | 0 <= i < |s|
      ensures !('A' <= Lower(s)[i] <= 'Z')
    {
      assert Lower(s)[i] == LowerChar(s[i]);
    }
  }

  lemma LowerOfNoUpper(s: string)
    requires NoUpper(s)
    ensures Lower(s) == s
  {
  }

  /** Stripping keeps a contiguous slice, so it cannot introduce upper case. */
  lemma StripKeepsNoUpper(s: string)
    requires NoUpper(s)
    ensures NoUpper(Strip(s))
  {
    SliceKeepsNoUpper(s, |s| - |TrimStart(s)|, |s|);
    var a := TrimStart(s);
    SliceKeepsNoUpper(a, 0, |TrimEnd(a)|);
  }

  lemma SliceKeepsNoUpper(s: string, lo: nat, hi: nat)
    requires NoUpper(s) && lo <= hi <= |s|
    ensures NoUpper(s[lo..hi])
  {
    forall i | 0 <= i < hi - lo
      ensures !('A' <= s[lo..hi][i] <= 'Z')
    {
      assert s[lo..hi][i] == s[lo + i];
    }
  }
}

=== FILE: transaction_routes.dfy ===
/** Peer-to-peer transfers with a fee, and the transaction history reads. */
module TransactionRoutes {
  import opened Common
  import opened Money
  import opened Models
  import opened Store

  /** The body of a send request: the receiver's public wallet id, the amount
      (0 when absent) and a free-text note ("" when absent). */
  datatype SendRequest = SendRequest(walletId: Option<string>, amount: AmountField, note: TextField)

  /** What a successful transfer reports. */
  datatype SendReceipt = SendReceipt(
    transactionId: string,
    senderWallet: string,
    receiverWallet: string,
    amount: Cents,
    fee: Cents,
    total: Cents,
    senderNewBalance: Cents)

  /** A transfer that passed every check: the wallets' positions and the money moved. */
  datatype Plan = Plan(sender: nat, receiver: nat, amount: Cents, fee: Cents, total: Cents)

  function SendAmount(req: SendRequest): Result<int, ParseError>
  {
    ParseAmount(req.amount, Some(0))
  }

  /** The request names a receiver wallet and a positive amount. */
  predicate WellFormed(req: SendRequest)
  {
    SendAmount(req).Ok? && SendAmount(req).value > 0 && Given(req.walletId)
  }

  /** Both wallets exist and are different wallets. */
  predicate Routable(db: Db, user: UserId, req: SendRequest)
    requires WellFormed(req)
  {
    && WalletOfUser(db.wallets, user).Some?
    && WalletById(db.wallets, req.walletId.value).Some?
    && db.wallets[WalletOfUser(db.wallets, user).value].walletId
       != db.wallets[WalletById(db.wallets, req.walletId.value).value].walletId
  }

  /** The sender's balance covers the amount plus its fee. */
  predicate Covered(db: Db, user: UserId, req: SendRequest)
    requires WellFormed(req) && Routable(db, user, req)
  {
    db.wallets[WalletOfUser(db.wallets, user).value].balance >= TotalWithFee(SendAmount(req).value)
  }

  /** The checks `send_money` makes before touching anything, in its order.
      A null amount makes `float` raise a TypeError, which only the generic
      handler catches: a server error. */
  function ValidateSend(db: Db, user: UserId, req: SendRequest): (r: Result<Plan, Failure>)
    ensures SendAmount(req) == Err(ValueError) ==> r == Err(InvalidAmountFormat)
    ensures SendAmount(req) == Err(TypeError) ==> r == Err(ServerError)
    ensures SendAmount(req).Ok? && !WellFormed(req) ==> r == Err(InvalidWalletOrAmount)
    ensures WellFormed(req) && WalletOfUser(db.wallets, user).None? ==> r == Err(NotFound(SenderWallet))
    ensures (WellFormed(req) && WalletOfUser(db.wallets, user).Some?
             && WalletById(db.wallets, req.walletId.value).None?) ==> r == Err(NotFound(ReceiverWallet))
    ensures r == Err(SelfTransfer) <==>
              WellFormed(req) && WalletOfUser(db.wallets, user).Some?
              && WalletById(db.wallets, req.walletId.value).Some? && !Routable(db, user, req)
    ensures r == Err(InsufficientBalance) <==>
              WellFormed(req) && Routable(db, user, req) && !Covered(db, user, req)
    ensures r.Ok? <==> WellFormed(req) && Routable(db, user, req) && Covered(db, user, req)
    ensures r.Ok? ==>
              var p := r.value;
              && SendAmount(req) == Ok(p.amount) && p.amount > 0
              && WalletOfUser(db.wallets, user) == Some(p.sender)
              && WalletById(db.wallets, req.walletId.value) == Some(p.receiver)
              && p.sender != p.receiver
              && p.fee == CalculateFee(p.amount) && p.total == p.amount + p.fee
              && db.wallets[p.sender].balance >= p.total
  {
    match SendAmount(req)
    case Err(ValueError) => Err(InvalidAmountFormat)
    case Err(TypeError) => Err(ServerError)
    case Ok(amount) =>
      if !Given(req.walletId) || amount <= 0 then Err(InvalidWalletOrAmount)
      else
        match WalletOfUser(db.wallets, user)
        case None => Err(NotFound(SenderWallet))
        case Some(si) =>
          match WalletById(db.wallets, req.walletId.value)
          case None => Err(NotFound(ReceiverWallet))
          case Some(ri) =>
            if db.wallets[si].walletId == db.wallets[ri].walletId then Err(SelfTransfer)
            else
              var fee := CalculateFee(amount);
              var total := amount + fee;
              if db.wallets[si].balance < total then Err(InsufficientBalance)
              else Ok(Plan(si, ri, amount, fee, total))
  }

  /** `send_money`. A failed check replies with its error and changes nothing;
      a transaction id already in use makes the commit fail and roll back.
      Otherwise the sender is debited amount + fee, the receiver credited the
      amount, and one completed transfer row is appended. The receiver's user
      record is read after the commit; if it were missing the reply would be a
      server error although the transfer stands. */
  function SendMoney(db: Db, user: UserId, req: SendRequest, newId: string): (step: Step<SendReceipt>)
    ensures ValidateSend(db, user, req).Err? ==> step == Step(db, Err(ValidateSend(db, user, req).error))
    ensures ValidateSend(db, user, req).Ok? && HasTxnId(db.txns, newId) ==> step == Step(db, Err(ServerError))
    ensures step.db != db ==> ValidateSend(db, user, req).Ok? && !HasTxnId(db.txns, newId)
    ensures step.reply.Ok? ==> ValidateSend(db, user, req).Ok? && !HasTxnId(db.txns, newId)
    ensures ValidateSend(db, user, req).Ok? && !HasTxnId(db.txns, newId) ==>
              var p := ValidateSend(db, user, req).value;
              var s := db.wallets[p.sender];
              var r := db.wallets[p.receiver];
              && |step.db.wallets| == |db.wallets|
              && step.db.wallets[p.sender] == s.(balance := s.balance - p.total)
              && step.db.wallets[p.receiver] == r.(balance := r.balance + p.amount)
              && step.db.wallets[p.sender].balance >= 0
              && (forall j :: 0 <= j < |db.wallets| && j != p.sender && j != p.receiver ==>
                    step.db.wallets[j] == db.wallets[j])
              && step.db.txns == db.txns + [Txn(newId, user, r.userId, p.amount, p.fee, p.total,
                                                 Transfer, Completed, NoteOf(req.note, ""), None, None, None)]
              && step.db.users == db.users && step.db.notifications == db.notifications
              && (UserById(db.users, r.userId).Some? ==>
                    step.reply == Ok(SendReceipt(newId, s.walletId, r.walletId, p.amount, p.fee, p.total,
                                                 s.balance - p.total)))
              && (UserById(db.users, r.userId).None? ==> step.reply == Err(ServerError))
  {
    match ValidateSend(db, user, req)
    case Err(e) => Step(db, Err(e))
    case Ok(p) =>
      if HasTxnId(db.txns, newId) then Step(db, Err(ServerError))
      else
        var s := db.wallets[p.sender];
        var r := db.wallets[p.receiver];
        var ws := Credit(Credit(db.wallets, p.sender, -p.total), p.receiver, p.amount);
        var t := NewTxn(newId, user, r.userId, p.amount, p.total, Some(p.fee),
                        Some(Transfer), Some(Completed), NoteOf(req.note, ""), None, None);
        var db' := db.(wallets := ws, txns := db.txns + [t]);
        if UserById(db.users, r.userId).None? then Step(db', Err(ServerError))
        else Step(db', Ok(SendReceipt(newId, s.walletId, r.walletId, p.amount, p.fee, p.total,
                                       s.balance - p.total)))
  }

  /** A transfer destroys exactly its fee: the money in all wallets together
      drops by the fee and by nothing else. */
  lemma SendConservesMoney(db: Db, user: UserId, req: SendRequest, newId: string)
    requires SendMoney(db, user, req, newId).db != db
    ensures TotalBalance(SendMoney(db, user, req, newId).db.wallets)
            == TotalBalance(db.wallets) - ValidateSend(db, user, req).value.fee
  {
    var p := ValidateSend(db, user, req).value;
    CreditChangesTotal(db.wallets, p.sender, -p.total);
    CreditChangesTotal(Credit(db.wallets, p.sender, -p.total), p.receiver, p.amount);
  }

  /** Debiting one wallet by `total` and crediting another by `amount`, with a
      row under an unused id, keeps a consistent database consistent when the
      debited balance covers the total and the credit is not negative. */
  lemma TransferCommitKeepsValid(db: Db, si: nat, ri: nat, amount: Cents, total: Cents, t: Txn)
    requires Valid(db) && si < |db.wallets| && ri < |db.wallets| && si != ri
    requires db.wallets[si].balance >= total && amount >= 0
    requires !HasTxnId(db.txns, t.transactionId)
    ensures Valid(db.(wallets := Credit(Credit(db.wallets, si, -total), ri, amount), txns := db.txns + [t]))
  {
    CreditKeepsValid(db, si, -total);
    var db1 := db.(wallets := Credit(db.wallets, si, -total));
    assert db1.wallets[ri] == db.wallets[ri];
    CreditKeepsValid(db1, ri, amount);
    AppendKeepsUniqueIds(db.txns, t);
  }

  /** On a consistent database every failure leaves it unchanged, and every
      transfer keeps it consistent: in particular no balance goes negative. */
  lemma SendKeepsValid(db: Db, user: UserId, req: SendRequest, newId: string)
    requires Valid(db)
    ensures Valid(SendMoney(db, user, req, newId).db)
    ensures SendMoney(db, user, req, newId).reply.Err? ==> SendMoney(db, user, req, newId).db == db
  {
    if ValidateSend(db, user, req).Ok? && !HasTxnId(db.txns, newId) {
      var p := ValidateSend(db, user, req).value;
      var r := db.wallets[p.receiver];
      var t := NewTxn(newId, user, r.userId, p.amount, p.total, Some(p.fee),
                      Some(Transfer), Some(Completed), NoteOf(req.note, ""), None, None);
      TransferCommitKeepsValid(db, p.sender, p.receiver, p.amount, p.total, t);
      assert UserById(db.users, r.userId).Some?;
    }
  }

  // ----- history reads -----

  /** The `type` query parameter of the history listing. */
  datatype Direction = Sent | Received | All

  function DirectionOf(param: string): Direction
  {
    if param == "sent" then Sent else if param == "received" then Received else All
  }

  predicate IsSent(t: Txn, u: UserId)
  {
    t.senderId == u && t.kind == Transfer
  }

  predicate IsReceived(t: Txn, u: UserId)
  {
    t.receiverId == u && t.senderId != u && t.kind == Transfer
  }

  /** The user is a party to the row. */
  predicate Involves(t: Txn, u: UserId)
  {
    t.senderId == u || t.receiverId == u
  }

  predicate Shows(t: Txn, u: UserId, d: Direction)
  {
    match d
    case Sent => IsSent(t, u)
    case Received => IsReceived(t, u)
    case All => Involves(t, u)
  }

  /** One entry of the history listing with its two direction flags. */
  datatype Listed = Listed(txn: Txn, isSent: bool, isReceived: bool)

  function Entry(t: Txn, u: UserId): Listed
  {
    Listed(t, IsSent(t, u), IsReceived(t, u))
  }

  /** The rows shown in direction `d`, in table order. */
  function Select(ts: seq<Txn>, u: UserId, d: Direction): (r: seq<Listed>)
    ensures |r| <= |ts|
    ensures forall e :: e in r ==> e.txn in ts && Shows(e.txn, u, d) && e == Entry(e.txn, u)
    ensures forall t :: t in ts && Shows(t, u, d) ==> Entry(t, u) in r
  {
    if |ts| == 0 then []
    else
      var rest := Select(ts[1..], u, d);
      assert forall t :: t in ts[1..] ==> t in ts;
      assert forall t :: t in ts ==> t == ts[0] || t in ts[1..];
      if Shows(ts[0], u, d) then [Entry(ts[0], u)] + rest else rest
  }

  /** `get_transactions` without ordering and paging: the caller's rows in the
      requested direction, each with its sent / received flags. */
  function GetTransactions(db: Db, u: UserId, param: string): (r: seq<Listed>)
    ensures forall e :: e in r ==> e.txn in db.txns && Involves(e.txn, u)
    ensures forall e :: e in r ==> e == Entry(e.txn, u) && Shows(e.txn, u, DirectionOf(param))
    ensures param == "sent" ==> forall t :: t in db.txns ==> (Entry(t, u) in r <==> IsSent(t, u))
    ensures param == "received" ==> forall t :: t in db.txns ==> (Entry(t, u) in r <==> IsReceived(t, u))
    ensures param != "sent" && param != "received" ==>
              forall t :: t in db.txns ==> (Entry(t, u) in r <==> Involves(t, u))
  {
    Select(db.txns, u, DirectionOf(param))
  }

  /** Every transfer the user takes part in is listed as sent or as received,
      never both; a transfer to oneself counts as sent. */
  lemma {:induction false} TransfersSplitIntoSentAndReceived(db: Db, u: UserId, t: Txn)
    requires t in db.txns && t.kind == Transfer && Involves(t, u)
    ensures (Entry(t, u) in GetTransactions(db, u, "sent")) != (Entry(t, u) in GetTransactions(db, u, "received"))
  {
  }

  /** The detail of one row as `get_transaction` returns it. Its flags mean
      only "the user is the sender" / "the user is the receiver". */
  datatype Detail = Detail(txn: Txn, isSent: bool, isReceived: bool)

  /** `get_transaction`: unknown ids are 404, rows the caller is not a party
      to are 403, otherwise the row itself. */
  function GetTransaction(db: Db, u: UserId, id: string): (r: Result<Detail, Failure>)
    ensures TxnById(db.txns, id).None? <==> r == Err(NotFound(TransactionRow))
    ensures r.Ok? ==> r.value.txn in db.txns && r.value.txn.transactionId == id
    ensures r.Ok? <==> TxnById(db.txns, id).Some? && Involves(db.txns[TxnById(db.txns, id).value], u)
    ensures r.Ok? ==> r.value.isSent == (r.value.txn.senderId == u)
                      && r.value.isReceived == (r.value.txn.receiverId == u)
    ensures r.Err? ==> r.error == NotFound(TransactionRow) || r.error == NotParty
  {
    match TxnById(db.txns, id)
    case None => Err(NotFound(TransactionRow))
    case Some(i) =>
      var t := db.txns[i];
      if t.senderId != u && t.receiverId != u then Err(NotParty)
      else Ok(Detail(t, t.senderId == u, t.receiverId == u))
  }

  /** Under unique ids the detail read is exactly the row with that id. */
  lemma GetTransactionFindsTheRow(db: Db, u: UserId, i: nat)
    requires UniqueTxnIds(db.txns) && i < |db.txns| && Involves(db.txns[i], u)
    ensures GetTransaction(db, u, db.txns[i].transactionId).Ok?
    ensures GetTransaction(db, u, db.txns[i].transactionId).value.txn == db.txns[i]
  {
  }

  // ----- the history reads as written: identity compared as a string -----

  /** The two kinds of Python value the history reads compare: the party
      columns load as integers, while the caller's identity, issued as
      `str(user.id)` and read back here without `int(...)`, is a string. */
  datatype PyValue = PyInt(i: int) | PyStr(s: string)

  /** Python's `==`: an integer never equals a string. */
  predicate PyEq(a: PyValue, b: PyValue)
  {
    match (a, b)
    case (PyInt(x), PyInt(y)) => x == y
    case (PyStr(x), PyStr(y)) => x == y
    case _ => false
  }

  /** `get_transaction` as written: the party check compares the integer
      sender and receiver ids with the string identity, so no caller is ever
      a party and every existing row is refused. */
  function GetTransactionAsWritten(db: Db, identity: string, id: string): (r: Result<Detail, Failure>)
    ensures TxnById(db.txns, id).None? ==> r == Err(NotFound(TransactionRow))
    ensures TxnById(db.txns, id).Some? ==> r == Err(NotParty)
  {
    match TxnById(db.txns, id)
    case None => Err(NotFound(TransactionRow))
    case Some(i) =>
      var t := db.txns[i];
      var me := PyStr(identity);
      if !PyEq(PyInt(t.senderId), me) && !PyEq(PyInt(t.receiverId), me) then Err(NotParty)
      else Ok(Detail(t, PyEq(PyInt(t.senderId), me), PyEq(PyInt(t.receiverId), me)))
  }

  /** `get_transactions` as written: the SQL filters compare numerically and
      select the right rows, but the two flags are computed in Python against
      the string identity and are never set. */
  function GetTransactionsAsWritten(db: Db, u: UserId, identity: string, param: string): (r: seq<Listed>)
    ensures |r| == |GetTransactions(db, u, param)|
    ensures forall k :: 0 <= k < |r| ==>
              r[k].txn == GetTransactions(db, u, param)[k].txn && !r[k].isSent && !r[k].isReceived
  {
    var me := PyStr(identity);
    var rows := GetTransactions(db, u, param);
    seq(|rows|, k requires 0 <= k < |rows| =>
      var t := rows[k].txn;
      Listed(t, PyEq(PyInt(t.senderId), me) && t.kind == Transfer,
             PyEq(PyInt(t.receiverId), me) && !PyEq(PyInt(t.senderId), me) && t.kind == Transfer))
  }

  /** A concrete transfer of 50.00 from user 1 to user 2 shows both
      discrepancies: its sender, calling with the identity "1" its token
      carries, is refused the detail and sees the row in the "sent" listing
      unflagged, where the corrected reads return the row and flag it. */
  lemma StringIdentityHidesOwnTransfer()
    ensures var t := Txn("TXN1", 1, 2, 5000, 75, 5075, Transfer, Completed, Text(""), None, None, None);
            var db := Db([], [], [t], []);
            && GetTransactionAsWritten(db, "1", "TXN1") == Err(NotParty)
            && GetTransaction(db, 1, "TXN1") == Ok(Detail(t, true, false))
            && GetTransactionsAsWritten(db, 1, "1", "sent") == [Listed(t, false, false)]
            && GetTransactions(db, 1, "sent") == [Listed(t, true, false)]
  {
    var t := Txn("TXN1", 1, 2, 5000, 75, 5075, Transfer, Completed, Text(""), None, None, None);
    var db := Db([], [], [t], []);
    assert TxnById(db.txns, "TXN1") == Some(0);
    assert Select([t][1..], 1, Sent) == [] by {
      assert [t][1..] == [];
    }
    assert GetTransactions(db, 1, "sent") == [Listed(t, true, false)];
  }
}

=== FILE: wallet_routes.dfy ===
/** Funding a wallet: direct top-ups, mobile-money deposits started with the
    gateway, and the gateway's asynchronous result callback. */
module WalletRoutes {
  import opened Common
  import opened Money
  import opened Models
  import opened Store

  // ----- add_funds -----

  /** The largest direct top-up, 10,000.00. */
  const MaxTopUp: Cents := 1_000_000

  /** The body of a top-up: amount (0 when absent) and note (a default text when absent). */
  datatype AddFundsRequest = AddFundsRequest(amount: AmountField, note: TextField)

  const DefaultTopUpNote: string := "Added funds to wallet"

  datatype TopUp = TopUp(wallet: Wallet, txn: Txn)

  /** `add_funds`: the caller's wallet must exist, the amount must be a number
      in (0, 10,000.00]; then the balance rises by exactly the amount and one
      completed top-up row with no fee is appended. */
  function AddFundsToWallet(db: Db, user: UserId, req: AddFundsRequest, newId: string): (step: Step<TopUp>)
    ensures WalletOfUser(db.wallets, user).None? ==> step == Step(db, Err(NotFound(OwnWallet)))
    ensures step.reply.Err? ==> step.db == db
    ensures step.reply.Ok? <==>
              && WalletOfUser(db.wallets, user).Some?
              && ParseAmount(req.amount, Some(0)).Ok?
              && 0 < ParseAmount(req.amount, Some(0)).value <= MaxTopUp
              && !HasTxnId(db.txns, newId)
    ensures step.reply == Err(InvalidAmountFormat) <==>
              WalletOfUser(db.wallets, user).Some? && ParseAmount(req.amount, Some(0)) == Err(ValueError)
    ensures (WalletOfUser(db.wallets, user).Some? && ParseAmount(req.amount, Some(0)) == Err(TypeError))
            ==> step == Step(db, Err(ServerError))
    ensures step.reply == Err(InvalidAmount) <==>
              && WalletOfUser(db.wallets, user).Some? && ParseAmount(req.amount, Some(0)).Ok?
              && ParseAmount(req.amount, Some(0)).value <= 0
    ensures (WalletOfUser(db.wallets, user).Some? && ParseAmount(req.amount, Some(0)).Ok?
             && ParseAmount(req.amount, Some(0)).value > MaxTopUp) ==> step.reply == Err(AmountOverLimit)
    ensures step.reply.Ok? ==>
              var i := WalletOfUser(db.wallets, user).value;
              var a := ParseAmount(req.amount, Some(0)).value;
              && step.db.wallets == Credit(db.wallets, i, a)
              && step.db.txns == db.txns + [Txn(newId, user, user, a, 0, a, AddFunds, Completed,
                                                 NoteOf(req.note, DefaultTopUpNote), None, None, None)]
              && step.db.users == db.users && step.db.notifications == db.notifications
              && step.reply.value.wallet == step.db.wallets[i]
  {
    match WalletOfUser(db.wallets, user)
    case None => Step(db, Err(NotFound(OwnWallet)))
    case Some(i) =>
      match ParseAmount(req.amount, Some(0))
      case Err(ValueError) => Step(db, Err(InvalidAmountFormat))
      case Err(TypeError) => Step(db, Err(ServerError))
      case Ok(amount) =>
        if amount <= 0 then Step(db, Err(InvalidAmount))
        else if amount > MaxTopUp then Step(db, Err(AmountOverLimit))
        else if HasTxnId(db.txns, newId) then Step(db, Err(ServerError))
        else
          var t := NewTxn(newId, user, user, amount, amount, Some(0), Some(AddFunds),
                          Some(Completed), NoteOf(req.note, DefaultTopUpNote), None, None);
          var ws := Credit(db.wallets, i, amount);
          Step(db.(wallets := ws, txns := db.txns + [t]), Ok(TopUp(ws[i], t)))
  }

  /** A top-up adds exactly its amount to the money held by all wallets, and
      keeps the database consistent. */
  lemma AddFundsAccounting(db: Db, user: UserId, req: AddFundsRequest, newId: string)
    requires AddFundsToWallet(db, user, req, newId).reply.Ok?
    ensures TotalBalance(AddFundsToWallet(db, user, req, newId).db.wallets)
            == TotalBalance(db.wallets) + ParseAmount(req.amount, Some(0)).value
    ensures Valid(db) ==> Valid(AddFundsToWallet(db, user, req, newId).db)
  {
    var i := WalletOfUser(db.wallets, user).value;
    var a := ParseAmount(req.amount, Some(0)).value;
    CreditChangesTotal(db.wallets, i, a);
    if Valid(db) {
      CreditKeepsValid(db, i, a);
      AppendKeepsUniqueIds(db.txns, AddFundsToWallet(db, user, req, newId).reply.value.txn);
    }
  }

  // ----- mpesa_deposit -----

  /** The body of a deposit request. The amount has no default. */
  datatype DepositRequest = DepositRequest(amount: AmountField, phone: Option<string>)

  /** What the gateway's payment-request endpoint answered: nothing (the call
      raised), something that is not JSON, or a JSON object with these fields. */
  datatype GatewayReply =
    | Unreachable
    | NotJson
    | Json(responseCode: Option<string>, checkoutRequestId: Option<string>, merchantRequestId: Option<string>)

  /** The gateway took the payment request. */
  predicate GatewayAccepted(g: GatewayReply)
  {
    g.Json? && g.responseCode == Some("0")
  }

  datatype DepositStarted = DepositStarted(transactionId: string, checkoutRequestId: Option<string>)

  /** The row recorded for an accepted deposit: the user pays themself, no
      fee, pending, carrying the gateway's two correlation ids. */
  function PendingDeposit(id: string, user: UserId, amount: Cents, g: GatewayReply): Txn
    requires g.Json?
  {
    NewTxn(id, user, user, amount, amount, Some(0), Some(MpesaDeposit), Some(Pending),
           MpesaPending(g.merchantRequestId), g.merchantRequestId, g.checkoutRequestId)
  }

  /** `mpesa_deposit`. Any parse failure of the amount raises into the generic
      500 handler. A non-positive amount or a missing wallet is rejected before
      the gateway is called. A pending row is created exactly when the gateway
      accepted the request; balances are never touched. */
  function StartMpesaDeposit(db: Db, user: UserId, req: DepositRequest, gateway: GatewayReply, newId: string)
    : (step: Step<DepositStarted>)
    ensures ParseAmount(req.amount, None).Err? ==> step == Step(db, Err(ServerError))
    ensures ParseAmount(req.amount, None).Ok? && ParseAmount(req.amount, None).value <= 0
            ==> step == Step(db, Err(InvalidAmount))
    ensures (ParseAmount(req.amount, None).Ok? && ParseAmount(req.amount, None).value > 0
             && WalletOfUser(db.wallets, user).None?) ==> step == Step(db, Err(NotFound(OwnWallet)))
    ensures step.db.wallets == db.wallets && step.db.users == db.users
    ensures step.db.notifications == db.notifications
    ensures step.reply.Err? ==> step.db == db
    ensures !GatewayAccepted(gateway) ==> step.db == db
    ensures step.reply.Ok? <==>
              && ParseAmount(req.amount, None).Ok? && ParseAmount(req.amount, None).value > 0
              && WalletOfUser(db.wallets, user).Some?
              && GatewayAccepted(gateway) && !HasTxnId(db.txns, newId)
    ensures step.reply.Ok? ==>
              && step.db.txns == db.txns + [PendingDeposit(newId, user, ParseAmount(req.amount, None).value, gateway)]
              && step.reply.value == DepositStarted(newId, gateway.checkoutRequestId)
  {
    match ParseAmount(req.amount, None)
    case Err(_) => Step(db, Err(ServerError))
    case Ok(amount) =>
      if amount <= 0 then Step(db, Err(InvalidAmount))
      else if WalletOfUser(db.wallets, user).None? then Step(db, Err(NotFound(OwnWallet)))
      else
        match gateway
        case Unreachable => Step(db, Err(ServerError))
        case NotJson => Step(db, Err(ServerError))
        case Json(code, checkout, merchant) =>
          if code != Some("0") then Step(db, Err(GatewayRejected))
          else if HasTxnId(db.txns, newId) then Step(db, Err(ServerError))
          else
            Step(db.(txns := db.txns + [PendingDeposit(newId, user, amount, gateway)]),
                 Ok(DepositStarted(newId, checkout)))
  }

  /** The pending row of an accepted deposit has the properties the
      reconciliation relies on. */
  lemma PendingDepositShape(id: string, user: UserId, amount: Cents, g: GatewayReply)
    requires g.Json?
    ensures var t := PendingDeposit(id, user, amount, g);
            && t.senderId == user && t.receiverId == user
            && t.fee == 0 && t.totalAmount == t.amount == amount
            && t.kind == MpesaDeposit && t.status == Pending
            && t.merchantRequestId == g.merchantRequestId && t.checkoutRequestId == g.checkoutRequestId
  {
  }

  // ----- mpesa_callback -----

  /** One `{Name, Value}` entry of the callback metadata. */
  datatype Item = Item(name: string, value: JsonValue)

  /** The fields of `Body.stkCallback`; a missing field reads as null. */
  datatype Callback = Callback(
    merchantRequestId: Option<string>,
    checkoutRequestId: Option<string>,
    resultCode: Option<int>,
    resultDesc: Option<string>,
    items: seq<Item>)

  /** The acknowledgement sent back to the gateway: ResultCode 0 ("Accepted")
      for every handled case, ResultCode 1 only for an unexpected error. */
  datatype Ack = Accepted

  /** The ResultCode field of the reply. */
  function AckCode(r: Result<Ack, Failure>): int
  {
    if r.Ok? then 0 else 1
  }

  /** The value of the first item with the given name (`next(...)` over the items). */
  function ItemValue(items: seq<Item>, name: string): (r: Option<JsonValue>)
    ensures r.Some? ==> exists j :: 0 <= j < |items| && items[j] == Item(name, r.value)
                                    && forall k :: 0 <= k < j ==> items[k].name != name
    ensures r.None? ==> forall j :: 0 <= j < |items| ==> items[j].name != name
  {
    match Find(items, (it: Item) => it.name == name)
    case None => None
    case Some(j) => Some(items[j].value)
  }

  /** The settled amount the gateway reports: the "Amount" item converted with
      `float(...)`, 0 when there is no such item. Only numbers convert. */
  function ReportedAmount(cb: Callback): (r: Option<Cents>)
    ensures ItemValue(cb.items, "Amount").None? ==> r == Some(0)
    ensures forall c :: ItemValue(cb.items, "Amount") == Some(JNumber(c)) ==> r == Some(c)
    ensures ItemValue(cb.items, "Amount").Some? && !ItemValue(cb.items, "Amount").value.JNumber? ==> r.None?
  {
    match ItemValue(cb.items, "Amount")
    case None => Some(0)
    case Some(JNumber(c)) => Some(c)
    case Some(_) => None
  }

  /** The position of the first pending row with this merchant request id.
      A null id matches rows whose id is null, as the query's `IS NULL` does. */
  function PendingByMerchant(ts: seq<Txn>, merchantRequestId: Option<string>): (r: Option<nat>)
    ensures r.Some? ==> r.value < |ts| && ts[r.value].status == Pending
                        && ts[r.value].merchantRequestId == merchantRequestId
    ensures r.None? ==> forall j :: 0 <= j < |ts| ==>
                          ts[j].status != Pending || ts[j].merchantRequestId != merchantRequestId
  {
    Find(ts, (t: Txn) => t.merchantRequestId == merchantRequestId && t.status == Pending)
  }

  /** `mpesa_callback`, the reconciliation state machine of one deposit row:
      - no pending row with the merchant request id: acknowledge, change nothing;
      - the depositor has no wallet: the row fails;
      - ResultCode 0: the wallet is credited by the amount the gateway reports
        (not the amount stored in the row) and the row completes;
      - any other ResultCode: the row fails, no balance changes.
      A non-numeric reported amount raises and rolls back (ResultCode 1). */
  function MpesaCallback(db: Db, cb: Callback): (step: Step<Ack>)
    ensures PendingByMerchant(db.txns, cb.merchantRequestId).None? ==> step == Step(db, Ok(Accepted))
    ensures step.reply.Err? ==> step.db == db && step.reply.error == ServerError
    ensures step.db.users == db.users && step.db.notifications == db.notifications
    ensures |step.db.txns| == |db.txns|
    ensures step.db != db ==>
              var i := PendingByMerchant(db.txns, cb.merchantRequestId).value;
              && PendingByMerchant(db.txns, cb.merchantRequestId).Some?
              && step.reply == Ok(Accepted)
              && step.db.txns[i].status != Pending
              && Resolves(db.txns[i], step.db.txns[i])
              && (forall j :: 0 <= j < |db.txns| && j != i ==> step.db.txns[j] == db.txns[j])
    ensures step.db.wallets != db.wallets ==>
              var i := PendingByMerchant(db.txns, cb.merchantRequestId).value;
              && PendingByMerchant(db.txns, cb.merchantRequestId).Some?
              && cb.resultCode == Some(0)
              && WalletOfUser(db.wallets, db.txns[i].senderId).Some?
              && ReportedAmount(cb).Some?
              && step.db.wallets == Credit(db.wallets, WalletOfUser(db.wallets, db.txns[i].senderId).value,
                                           ReportedAmount(cb).value)
              && step.db.txns[i].status == Completed
    ensures PendingByMerchant(db.txns, cb.merchantRequestId).Some? && cb.resultCode != Some(0)
            ==> step.db.wallets == db.wallets
                && step.db.txns[PendingByMerchant(db.txns, cb.merchantRequestId).value].status == Failed
                && step.reply == Ok(Accepted)
    ensures PendingByMerchant(db.txns, cb.merchantRequestId).Some?
            && WalletOfUser(db.wallets, db.txns[PendingByMerchant(db.txns, cb.merchantRequestId).value].senderId).None?
            ==> step.db.wallets == db.wallets
                && step.db.txns[PendingByMerchant(db.txns, cb.merchantRequestId).value].status == Failed
                && step.reply == Ok(Accepted)
    ensures PendingByMerchant(db.txns, cb.merchantRequestId).Some?
            && WalletOfUser(db.wallets, db.txns[PendingByMerchant(db.txns, cb.merchantRequestId).value].senderId).Some?
            && cb.resultCode == Some(0)
            ==> var i := PendingByMerchant(db.txns, cb.merchantRequestId).value;
                var w := WalletOfUser(db.wallets, db.txns[i].senderId).value;
                && (ReportedAmount(cb).None? ==> step == Step(db, Err(ServerError)))
                && (ReportedAmount(cb).Some? ==>
                      && step.reply == Ok(Accepted)
                      && step.db.wallets == Credit(db.wallets, w, ReportedAmount(cb).value)
                      && step.db.txns[i].status == Completed)
  {
    match PendingByMerchant(db.txns, cb.merchantRequestId)
    case None => Step(db, Ok(Accepted))
    case Some(i) =>
      var t := db.txns[i];
      match WalletOfUser(db.wallets, t.senderId)
      case None =>
        Step(db.(txns := db.txns[i := t.(status := Failed, note := Text("Wallet not found"))]), Ok(Accepted))
      case Some(w) =>
        if cb.resultCode == Some(0) then
          match ReportedAmount(cb)
          case None => Step(db, Err(ServerError))
          case Some(amount) =>
            var done := t.(status := Completed,
                           note := MpesaSucceeded(ItemValue(cb.items, "MpesaReceiptNumber")));
            Step(db.(wallets := Credit(db.wallets, w, amount), txns := db.txns[i := done]), Ok(Accepted))
        else
          Step(db.(txns := db.txns[i := t.(status := Failed, note := MpesaFailed(cb.resultDesc))]), Ok(Accepted))
  }

  /** The gateway is told ResultCode 1 exactly in the one case that rolls
      back: a pending row whose owner has a wallet, ResultCode 0, and a
      reported amount `float` cannot convert. Every other callback, matched or
      not, is acknowledged with ResultCode 0. */
  lemma CallbackAckCode(db: Db, cb: Callback)
    ensures var i := PendingByMerchant(db.txns, cb.merchantRequestId);
            AckCode(MpesaCallback(db, cb).reply) == 1 <==>
              && i.Some?
              && WalletOfUser(db.wallets, db.txns[i.value].senderId).Some?
              && cb.resultCode == Some(0)
              && ReportedAmount(cb).None?
  {
  }

  /** Rows that are already completed or failed are never touched by a
      callback: terminal states are final. */
  lemma CallbackLeavesTerminalRows(db: Db, cb: Callback, j: nat)
    requires j < |db.txns| && db.txns[j].status != Pending
    ensures MpesaCallback(db, cb).db.txns[j] == db.txns[j]
  {
  }

  /** The money credited by a callback is the gateway-reported amount, and
      with a non-negative report the database stays consistent. */
  lemma CallbackAccounting(db: Db, cb: Callback)
    ensures var after := MpesaCallback(db, cb).db;
            TotalBalance(after.wallets) == TotalBalance(db.wallets)
            || (ReportedAmount(cb).Some?
                && TotalBalance(after.wallets) == TotalBalance(db.wallets) + ReportedAmount(cb).value)
    ensures Valid(db) && (ReportedAmount(cb).Some? ==> ReportedAmount(cb).value >= 0)
            ==> Valid(MpesaCallback(db, cb).db)
  {
    var step := MpesaCallback(db, cb);
    if step.db.wallets != db.wallets {
      var i := PendingByMerchant(db.txns, cb.merchantRequestId).value;
      var w := WalletOfUser(db.wallets, db.txns[i].senderId).value;
      CreditChangesTotal(db.wallets, w, ReportedAmount(cb).value);
      if Valid(db) && ReportedAmount(cb).value >= 0 {
        CreditKeepsValid(db, w, ReportedAmount(cb).value);
      }
    }
    if Valid(db) && step.db != db {
      assert forall j :: 0 <= j < |db.txns| ==> step.db.txns[j].transactionId == db.txns[j].transactionId;
    }
  }

  /** At most one pending row carries this merchant request id. */
  ghost predicate PendingUnique(ts: seq<Txn>, merchantRequestId: Option<string>)
  {
    forall i, j :: 0 <= i < j < |ts| && ts[i].status == Pending && ts[j].status == Pending
      ==> ts[i].merchantRequestId != merchantRequestId || ts[j].merchantRequestId != merchantRequestId
  }

  /** Delivering the same callback again changes nothing: after the first
      delivery resolved the (only) pending row, the second finds no pending row
      and just acknowledges; if the first rolled back, so does the second. */
  lemma CallbackReplayIsNoOp(db: Db, cb: Callback)
    requires PendingUnique(db.txns, cb.merchantRequestId)
    ensures MpesaCallback(MpesaCallback(db, cb).db, cb).db == MpesaCallback(db, cb).db
    ensures PendingUnique(MpesaCallback(db, cb).db.txns, cb.merchantRequestId)
  {
    var s1 := MpesaCallback(db, cb).db;
    if s1 != db {
      var i := PendingByMerchant(db.txns, cb.merchantRequestId).value;
      forall j | 0 <= j < |s1.txns|
        ensures s1.txns[j].status != Pending || s1.txns[j].merchantRequestId != cb.merchantRequestId
      {
        if j != i {
          assert db.txns[j] == s1.txns[j];
        }
      }
      assert PendingByMerchant(s1.txns, cb.merchantRequestId).None?;
    }
  }

  /** The same callback delivered any number of times, one after another. */
  function Redeliver(db: Db, cb: Callback, times: nat): Db
    decreases times
  {
    if times == 0 then db else Redeliver(MpesaCallback(db, cb).db, cb, times - 1)
  }

  /** However often the gateway redelivers a callback, the effect is that of
      one delivery: the deposit is credited at most once. */
  lemma {:induction false} RedeliveryCreditsOnce(db: Db, cb: Callback, times: nat)
    requires PendingUnique(db.txns, cb.merchantRequestId)
    requires times >= 1
    ensures Redeliver(db, cb, times) == MpesaCallback(db, cb).db
    decreases times
  {
    var s1 := MpesaCallback(db, cb).db;
    CallbackReplayIsNoOp(db, cb);
    if times > 1 {
      RedeliveryCreditsOnce(s1, cb, times - 1);
      assert Redeliver(s1, cb, times - 1) == MpesaCallback(s1, cb).db == s1;
    }
  }

  /** A deposit and its callback, end to end: once a deposit has been started
      under a merchant request id no other pending row carries, the gateway's
      callback for that id resolves exactly the new row. A success credits the
      depositor's wallet with the reported amount and completes the row; any
      other result fails the row and leaves every balance as it was. */
  lemma DepositThenSettle(db: Db, user: UserId, req: DepositRequest, g: GatewayReply, newId: string, cb: Callback)
    requires StartMpesaDeposit(db, user, req, g, newId).reply.Ok?
    requires PendingByMerchant(db.txns, g.merchantRequestId).None?
    requires cb.merchantRequestId == g.merchantRequestId
    ensures var db1 := StartMpesaDeposit(db, user, req, g, newId).db;
            var s := MpesaCallback(db1, cb);
            && |s.db.txns| == |db.txns| + 1
            && s.db.txns[..|db.txns|] == db.txns
            && (cb.resultCode != Some(0) ==>
                  s.reply == Ok(Accepted) && s.db.wallets == db.wallets
                  && s.db.txns[|db.txns|].status == Failed)
            && (cb.resultCode == Some(0) && ReportedAmount(cb).Some? ==>
                  s.reply == Ok(Accepted)
                  && s.db.wallets == Credit(db.wallets, WalletOfUser(db.wallets, user).value, ReportedAmount(cb).value)
                  && s.db.txns[|db.txns|].status == Completed)
  {
    var db1 := StartMpesaDeposit(db, user, req, g, newId).db;
    var n := |db.txns|;
    assert db1.txns[n] == PendingDeposit(newId, user, ParseAmount(req.amount, None).value, g);
    assert forall j :: 0 <= j < n ==> db1.txns[j] == db.txns[j];
    assert PendingByMerchant(db1.txns, cb.merchantRequestId) == Some(n);
    var s := MpesaCallback(db1, cb);
    assert forall j :: 0 <= j < n ==> s.db.txns[j] == db.txns[j];
    assert s.db.txns[..n] == db.txns;
  }
}
